=== FILE: README.md ===
# Marketplace cart and checkout, modelled in Dafny

This project models the buyer-side core of a small marketplace web application. Buyers collect products from several businesses into carts. They check out per business by opening a WhatsApp chat that carries a pre-written order message. Around that core sit a mock login and registration, the signup and add-product form checks, the home-page search and statistics, the backend's error taxonomy, and the derived values and schema rules of the product, cart and order documents.

The model is written as pure functions over immutable values:

- The per-business cart store (a JavaScript `Map`) is an insertion-ordered list of entries (`OrderedMap`). Its operations are `CartContext`. Its save and load to browser storage are `CartPersistence`.
- The order message and the `https://wa.me/<digits>?text=<encoded>` link are `WhatsApp`. `encodeURIComponent` is `Uri`, with a decoder and a round-trip proof.
- The flat cart page (grouping, totals, removal, the checkout guard) is `BuyerCart`.
- The mock user list with login, registration and the business-role check is `Auth`. The signup page is `Signup` and the add-product page is `AddProduct`.
- The home-page filter and counters are `Search`.
- `AppError` and its thirteen subclasses are `Errors`.
- The enumerations of the backend configuration are `Constants`. The three documents are `ProductModel`, `CartModel` and `OrderModel`, with the shared quantity sum in `Tally`.
- Money is integer cents throughout, so `toFixed(2)` is exact (`Money.FormatCents`, with its inverse `Money.ParseCents`).

Behaviour worth knowing before reading the model:

- The order message is the template in `lib/whatsappUtils.js` ("*New Order from …"). The greeting `Hello, my name is …` belongs to app/buyer/[businessId]/cart/page.jsx:79, which sends a different message and is not modelled.
- `updateQuantity` clamps a quantity below 1 up to 1 instead of ignoring it.
- The flat-cart checkout requires both the buyer's name and phone. It fills in no defaults.

## Model

| member | source | states |
|---|---|---|
| CartContext.FindItem | context/CartContext.jsx:38-40 | the index returned is the first line carrying the product id; none means no line carries it |
| CartContext.MergeItem | context/CartContext.jsx:38-46 | a known product id raises that line's quantity and adds no line; a new one is appended after the unchanged earlier lines |
| CartContext.WithoutProduct | context/CartContext.jsx:66-68 | keeps exactly the lines whose product id differs, never more lines than before; a single line is kept or dropped as its id decides |
| CartContext.WithoutProductAppend | context/CartContext.jsx:66-68 | filtering distributes over concatenation, so the surviving lines keep their original order |
| CartContext.AddToCart | context/CartContext.jsx:32-58 | other businesses' carts are untouched; a missing cart becomes one holding just the product with the given name and phone; an existing cart keeps its name and phone and merges the product, and the businesses keep their order |
| CartContext.RemoveFromCart | context/CartContext.jsx:60-77 | other businesses are untouched; an absent business is a no-op; every line of the product goes, a cart left empty is deleted with the other businesses keeping their order, and a cart that keeps lines keeps its place among the businesses |
| CartContext.AtLeastOne | context/CartContext.jsx:89 | the clamped quantity is the request when that is at least 1, and exactly 1 when the request is 1 or less |
| CartContext.UpdateQuantity | context/CartContext.jsx:79-95 | only the matching line changes, to the clamped quantity; no cart or line is removed; absent business or product is a no-op; the businesses keep their order |
| CartContext.GetBusinessCart | context/CartContext.jsx:97-99 | a cart is returned exactly when the business has an entry, and it is that entry's cart |
| CartContext.ClearBusinessCart | context/CartContext.jsx:101-107 | removes that one key; every other key keeps its cart and the remaining businesses keep their order |
| CartContext.GetCartTotal | context/CartContext.jsx:109-117 | 0 without a cart, otherwise the sum of price × quantity of its lines |
| CartContext.EmptyWellFormed | context/CartContext.jsx:8 | the initial empty store satisfies the store invariant |
| CartContext.MergeItemOk | context/CartContext.jsx:38-46 | merging a positive quantity keeps a cart non-empty, one line per product, quantities positive |
| CartContext.WithoutProductDistinct | context/CartContext.jsx:66-68 | filtering keeps product ids distinct |
| CartContext.AddToCartPreserves | context/CartContext.jsx:32-58 | adding a positive quantity keeps the store invariant |
| CartContext.RemoveFromCartPreserves | context/CartContext.jsx:60-77 | removal keeps the store invariant, including that no cart is empty |
| CartContext.UpdateQuantityPreserves | context/CartContext.jsx:79-95 | any requested quantity keeps the store invariant |
| CartContext.ClearBusinessCartPreserves | context/CartContext.jsx:101-107 | clearing keeps the store invariant |
| CartContext.ItemsTotal | context/CartContext.jsx:113-116 | no lines total 0 and a single line totals its price × quantity; ItemsTotalSplit makes it additive |
| CartContext.ItemsTotalSplit | context/CartContext.jsx:113-116 | a cart's total is the total of the lines kept by the filter plus the total of the lines it drops |
| CartContext.AddToCartTotal | context/CartContext.jsx:32-58 | adding raises that business's total by the added quantity times the price the line carries |
| CartContext.RemoveFromCartTotal | context/CartContext.jsx:60-77 | removal lowers the total by exactly the amount of the removed lines |
| CartContext.UpdateQuantityTotal | context/CartContext.jsx:79-95 | the total changes by the line's price times the change of quantity |
| CartContext.AddTwiceMerges | context/CartContext.jsx:38-46 | adding the same product twice gives one line holding the two quantities together |
| CartPersistence.Save | context/CartContext.jsx:25-30 | the saved value lists the entries in Map order |
| CartPersistence.Load | context/CartContext.jsx:11-22 | an empty or unreadable slot leaves the store unchanged; a stored list always loads into a store with distinct keys |
| CartPersistence.LoadSave | context/CartContext.jsx:12-29 | loading what was saved rebuilds the same store, entry order included |
| CartPersistence.LoadSaveWellFormed | context/CartContext.jsx:12-29 | a store satisfying the invariant still satisfies it after a save and reload |
| OrderedMap.Get | context/CartContext.jsx:35 | a lookup succeeds exactly for present keys and returns that key's value |
| OrderedMap.Set | context/CartContext.jsx:48 | the key set gains the key; a new key is appended at the end; a present key keeps the length |
| OrderedMap.SetGet | context/CartContext.jsx:48 | after `set` the key reads back the new value and every other key reads as before |
| OrderedMap.SetDistinct | context/CartContext.jsx:48 | `set` keeps keys distinct |
| OrderedMap.SetKeyOrder | context/CartContext.jsx:48 | `set` keeps a present key in its place and appends a new one |
| OrderedMap.Delete | context/CartContext.jsx:71 | the key disappears, every other key reads as before, and an absent key leaves the Map unchanged |
| OrderedMap.WithoutKey | context/CartContext.jsx:71 | the keys other than the deleted one, each kept exactly when it differs, a single key kept or dropped as it decides |
| OrderedMap.WithoutKeyAppend | context/CartContext.jsx:71 | filtering a key out distributes over concatenation, so the surviving keys keep their order |
| OrderedMap.DeleteKeyOrder | context/CartContext.jsx:71 | after `delete` the remaining keys stand in their insertion order with only the deleted key gone |
| OrderedMap.FromPairs | context/CartContext.jsx:16 | building a Map from pairs yields distinct keys, exactly the keys the pairs mention |
| OrderedMap.FromPairsGet | context/CartContext.jsx:16 | each key holds the value of the last pair naming it, an independent scan from the end |
| OrderedMap.FromPairsKeyOrder | context/CartContext.jsx:16 | the keys stand in the order the pairs first mention them |
| OrderedMap.FromPairsToPairs | context/CartContext.jsx:16 | rebuilding a Map from its own entries gives the same Map |
| Money.FormatCents | lib/whatsappUtils.js:37 | two decimals after a point, digits only, a leading '-' exactly for negative amounts |
| Money.FormatCentsRoundTrip | lib/whatsappUtils.js:37-38 | the formatted amount parses back to the same number of cents |
| Strings.NatToString | lib/whatsappUtils.js:36 | a non-empty run of digits without a leading zero |
| Strings.ParseNatToString | lib/whatsappUtils.js:36 | the line number written in the message reads back as itself |
| Strings.IntToStringRoundTrip | lib/whatsappUtils.js:37 | the quantity written in the message reads back as itself |
| Strings.Repeat | lib/whatsappUtils.js:33 | `repeat` gives n copies of the character |
| Strings.RepeatOccurrences | lib/whatsappUtils.js:33 | the separator built by `repeat(30)` contains the rule character 30 times |
| Strings.Includes | app/page.jsx:42-43 | the empty needle is always found and a found needle is no longer than the haystack; IncludesIsSubstring gives its full meaning |
| Strings.IncludesIsSubstring | app/page.jsx:42-43 | the `includes` scan succeeds exactly when the needle occurs at some position of the haystack |
| Strings.Lower | app/page.jsx:42-43 | keeps the length and maps each character on its own, ASCII capitals to small letters and nothing else; LowerForgetsCase is its partner |
| Strings.LowerForgetsCase | app/page.jsx:42-43 | lower-casing is idempotent and gives the same result for an upper-cased string |
| Strings.Utf16Length | lib/auth.js:10 | `.length` counts at least one and at most two units per character |
| Strings.Utf16LengthChar | lib/auth.js:10 | a character is one code unit exactly below U+10000 and two exactly from there up |
| Strings.Utf16LengthAppend | lib/auth.js:10 | code units add up across a concatenation, so with Utf16LengthChar the length is fixed for every string |
| Strings.Utf16LengthBmp | app/signup/page.jsx:38 | for text below U+10000 `.length` is the number of characters |
| Strings.Trim | backend/models/Product.js:54-63 | the result has no white space at either end and sits in the input with only white space before and after it; it is empty exactly when the input is all white space |
| Strings.TrimmedAtUnique | backend/models/Product.js:54-63 | only one trimmed infix has nothing but white space around it, so the contract of Trim fixes its result |
| Strings.TrimPadding | backend/models/Product.js:54-63 | trimming white space padded around a trimmed string gives back that string |
| Uri.EncodeURIComponent | lib/whatsappUtils.js:17 | unreserved text passes through unchanged and each character takes 1 to 12 output characters; DecodeEncode is its inverse |
| Uri.DecodeEncode | lib/whatsappUtils.js:17 | decoding the percent-encoded message yields the message |
| Uri.EncodedAlphabet | lib/whatsappUtils.js:17 | the encoding holds only unreserved characters and %XX triples |
| WhatsApp.Message | lib/whatsappUtils.js:22-45 | the template message; MessageOpening, BlocksIndex, MessageClosing and MessageRules state its opening lines, numbered blocks, closing total and separators |
| WhatsApp.BlocksIndex | lib/whatsappUtils.js:35-39 | one block per cart line, in cart order, the i-th numbered i + 1 |
| WhatsApp.BuildMessage | lib/whatsappUtils.js:22-45 | the loop that appends block after block builds exactly the message the template describes |
| WhatsApp.MessageOpening | lib/whatsappUtils.js:29-32 | the message starts with the buyer line, the business line and the buyer phone line |
| WhatsApp.MessageClosing | lib/whatsappUtils.js:41-44 | the message ends with the supplied total, written with two decimals, and a blank line |
| WhatsApp.BlockRules | lib/whatsappUtils.js:36-38 | a block contributes no rule character beyond those in the product name |
| WhatsApp.MessageRules | lib/whatsappUtils.js:33-41 | the rule character appears 60 times (two separators of 30) plus however often the names and phone contain it |
| WhatsApp.DigitsOnly | lib/whatsappUtils.js:19 | the phone segment holds only digits and is no longer than the phone |
| WhatsApp.DigitsOnlyAppend | lib/whatsappUtils.js:19 | digit stripping works piecewise, so it keeps the digits in order |
| WhatsApp.DigitsOnlyKeepsDigits | lib/whatsappUtils.js:19 | a phone that is already all digits is kept as is |
| WhatsApp.DigitsOnlyChar | lib/whatsappUtils.js:19 | a single character is kept exactly when it is a digit |
| WhatsApp.GenerateLink | lib/whatsappUtils.js:1-20 | splitting the link yields the stripped phone and, decoded, the order message |
| WhatsApp.LinkRoundTrip | lib/whatsappUtils.js:17-19 | any link built from a phone and a message splits back into the digits and the message |
| WhatsApp.LinkAlphabet | lib/whatsappUtils.js:19 | the link is the wa.me prefix, digits, "?text=" and a percent-encoded text |
| BuyerCart.CalculateTotal | app/buyer/cart/page.jsx:39-41 | an empty cart totals 0 and a single item totals its price × quantity; with CalculateTotalAppend that fixes the sum |
| BuyerCart.CalculateTotalAppend | app/buyer/cart/page.jsx:39-41 | the total of two item lists together is the sum of their totals |
| BuyerCart.CalculateTotalNonNegative | app/buyer/cart/page.jsx:39-41 | with no negative price or quantity the total is not negative |
| BuyerCart.ForBusiness | app/buyer/cart/page.jsx:56 | keeps exactly the items of that business |
| BuyerCart.ForBusinessAppend | app/buyer/cart/page.jsx:56 | the filter works piecewise, so it keeps cart order |
| BuyerCart.GroupByBusiness | app/buyer/cart/page.jsx:85-91 | the groups have distinct business ids |
| BuyerCart.GroupLookup | app/buyer/cart/page.jsx:85-91 | each business's group is exactly its items in cart order; a business without items has no group |
| BuyerCart.FirstAppearance | app/buyer/cart/page.jsx:85-91 | lists exactly the businesses that have items |
| BuyerCart.GroupOrder | app/buyer/cart/page.jsx:85-91 | groups appear in the order of each business's first item |
| BuyerCart.GroupTotals | app/buyer/cart/page.jsx:165 | the per-group subtotals add up to the whole-cart total |
| BuyerCart.GroupPermutation | app/buyer/cart/page.jsx:85-91 | the groups together hold the cart's items, each as often as in the cart |
| BuyerCart.HandleRemoveItem | app/buyer/cart/page.jsx:77-78 | keeps exactly the items not matching both the business and the product id |
| BuyerCart.RemoveItemAppend | app/buyer/cart/page.jsx:77-78 | removal works piecewise, so the kept items stay in order |
| BuyerCart.RemoveItemAbsent | app/buyer/cart/page.jsx:77-78 | removing a pair that no item matches leaves the cart as it is |
| BuyerCart.RemoveItemOtherBusiness | app/buyer/cart/page.jsx:77-78 | removal never touches another business's items |
| BuyerCart.OrderLines | app/buyer/cart/page.jsx:60-67 | the message gets one line per item with the item's name, price and quantity |
| BuyerCart.HandleCheckout | app/buyer/cart/page.jsx:50-75 | no link without name and phone; otherwise the link for that business's items, whose total is their price × quantity sum and whose phone and name come from the first item |
| BuyerCart.CheckoutIgnoresOthers | app/buyer/cart/page.jsx:56-67 | items of other businesses, before or after, never change the checkout |
| BuyerCart.CheckoutTotalIsGroupSubtotal | app/buyer/cart/page.jsx:57 | the total sent is the subtotal shown for that business's group |
| Auth.WithoutPassword | lib/auth.js:14 | the public record keeps every field except the password |
| Auth.FindByEmail | lib/auth.js:4 | a user is found exactly when one has the email, and the one found has it |
| Auth.LoginUser | lib/auth.js:3-16 | unknown email fails with 'User not found'; a password shorter than 6 fails with 'Invalid password'; success exactly otherwise, returning the user without password |
| Auth.RegisterBusiness | lib/auth.js:18-42 | a taken email fails with 'Email already registered' and leaves the list; otherwise exactly one business user is appended, named after the business |
| Auth.RegisterKeepsEmailsUnique | lib/auth.js:26-38 | registration keeps emails unique |
| Auth.RegisterThenLogin | lib/auth.js:3-38 | after registering, a login with that email and any password of 6 or more succeeds as the new business user |
| Auth.LoginIgnoresStoredPassword | lib/auth.js:10-12 | changing a stored password never changes any login result |
| Auth.IsBusinessUser | lib/auth.js:67-70 | holds exactly when there is a current user with role 'business' |
| Auth.RegisteredIsBusiness | lib/auth.js:30-41 | a freshly registered user passes the business-role check |
| Search.AnyProductMatches | app/page.jsx:43 | holds exactly when some product's lower-cased name contains the lower-cased query |
| Search.MatchesMeaning | app/page.jsx:40-44 | a business matches exactly when the lower-cased query occurs in its lower-cased name or in a product's |
| Search.FilterBusinesses | app/page.jsx:39-46 | keeps exactly the matching businesses |
| Search.FilterIsSubsequence | app/page.jsx:40 | the result is an order-preserving subsequence of the business list |
| Search.EmptyQueryKeepsAll | app/page.jsx:40-44 | the empty query keeps every business |
| Search.SearchIgnoresCase | app/page.jsx:42-43 | upper- or lower-casing the query never changes the result |
| Search.ComputeStats | app/page.jsx:22-27 | counts the businesses, takes totalProducts as the summed product count, fixes buyers saved at 1240, and counts no products exactly when every business has none |
| Search.TotalProductsSingle | app/page.jsx:22 | one business contributes exactly its own number of products |
| Search.TotalProductsAppend | app/page.jsx:22 | the product count adds up across lists of businesses |
| Search.FilteredProductsBounded | app/page.jsx:22-46 | the filtered businesses never hold more products than all of them |
| Signup.ValidateForm | app/signup/page.jsx:32-46 | the first failing check decides the message: required fields, then password length, then confirmation; it passes exactly when all hold |
| Signup.ContactFieldsOptional | app/signup/page.jsx:33-45 | phone and WhatsApp number never affect validation |
| Signup.ErrorText | app/signup/page.jsx:77 | the error shown is never empty and is the given error when there is one |
| Signup.HandleSubmit | app/signup/page.jsx:48-80 | a failed check only shows its message; a redirect happens exactly for a valid form with a new email, and goes to the dashboard as a business user |
| Signup.InvalidFormRegistersNobody | app/signup/page.jsx:51 | a failed check never registers anybody |
| Signup.TakenEmailRejected | app/signup/page.jsx:59-79 | a valid form with a taken email shows 'Email already registered' and changes nothing |
| Signup.SignupThenLogin | app/signup/page.jsx:59-75 | after a successful signup the new account can log in |
| AddProduct.ValidateForm | app/dashboard/add-product/page.jsx:66-76 | any empty field fails first; then a missing or non-positive price; it passes exactly when all four fields are filled and the price is positive |
| AddProduct.EmptyFieldTakesPrecedence | app/dashboard/add-product/page.jsx:67-73 | with an empty field and a bad price, the empty-field message wins |
| AddProduct.HandleSubmit | app/dashboard/add-product/page.jsx:78-91 | redirects to the success page exactly when validation passes, otherwise shows the validation message |
| AddProduct.AccessRedirect | app/dashboard/add-product/page.jsx:24-31 | sends to the login page exactly when the current user is not a business user |
| Errors.StatusCode | backend/types/errors.js:14-19 | a base error has the given status or 500; every derived kind uses one of 400, 401, 403, 404, 409, 429, 500, 503 |
| Errors.Code | backend/types/errors.js:14-19 | a base error has the given code or 'INTERNAL_ERROR' |
| Errors.DerivedKindPairs | backend/types/errors.js:32-161 | each of the thirteen kinds has its own (status, code) pair, from (400, VALIDATION_ERROR) to (500, INTEGRATION_ERROR) |
| Errors.Message | backend/types/errors.js:32-161 | the not-found, duplicate, unavailable and integration templates never give an empty message; the Default* and *Message lemmas give every text |
| Errors.StatusFollowsCode | backend/types/errors.js:32-161 | each derived kind's status is the one its code stands for |
| Errors.CodesIdentifyKinds | backend/types/errors.js:32-161 | two derived errors with the same code are of the same kind |
| Errors.DefaultAccessMessages | backend/types/errors.js:42-105 | without a message, authentication, authorization and rate-limit errors use their default texts |
| Errors.DefaultFailureMessages | backend/types/errors.js:112-125 | without a message, database and payment errors use their default texts |
| Errors.DefaultTransferMessages | backend/types/errors.js:132-145 | without a message, file-upload and email errors use their default texts |
| Errors.DefaultSubjects | backend/types/errors.js:62-95 | without a subject, the not-found and unavailable messages name "Resource" and "Service" |
| Errors.GivenMessageWins | backend/types/errors.js:14-145 | a message that is passed in is used as is |
| Errors.NotFoundMessage | backend/types/errors.js:63-64 | the message is the resource followed by " not found" |
| Errors.DuplicateMessage | backend/types/errors.js:73-74 | the message is the field, the quoted value, then "already exists" |
| Errors.IntegrationMessage | backend/types/errors.js:153-158 | a non-empty message wins; an empty or missing one gives the template naming the service |
| Constants.ParseProductStatus | backend/config/constants.js:33-37 | accepts exactly the three status strings, each as its own status |
| Constants.ProductStatusRoundTrip | backend/config/constants.js:33-37 | a status's stored string is accepted back as that status |
| Constants.ParseOrderStatus | backend/config/constants.js:40-48 | accepts exactly the seven order-status strings |
| Constants.OrderStatusRoundTrip | backend/config/constants.js:40-48 | an order status's stored string reads back as itself |
| Constants.ParsePaymentStatus | backend/config/constants.js:51-56 | accepts exactly the four payment-status strings |
| Constants.PaymentStatusRoundTrip | backend/config/constants.js:51-56 | a payment status's stored string reads back as itself |
| Constants.ParsePaymentMethod | backend/config/constants.js:59-65 | accepts exactly the five payment-method strings |
| Constants.PaymentMethodRoundTrip | backend/config/constants.js:59-65 | a payment method's stored string reads back as itself |
| ProductModel.DiscountPercentage | backend/models/Product.js:157-160 | 0 without a truthy discounted price; otherwise within half a unit of 100 × (price − discounted) / price |
| ProductModel.DiscountPercentageRounds | backend/models/Product.js:159 | as a real number the percentage is the exact saving rounded to the nearest integer, halves upwards |
| ProductModel.DiscountPercentageRange | backend/models/Product.js:159 | a discounted price in (0, price] gives a percentage from 0 to 100, and 0 exactly when the saving is under half a percent |
| ProductModel.HasDiscount | backend/models/Product.js:158 | JavaScript truthiness of the discounted price; NoDiscountFullPrice and FinalPrice state what it decides |
| ProductModel.FinalPrice | backend/models/Product.js:163-165 | the discounted price when it is truthy, the list price otherwise |
| ProductModel.FinalPriceMatchesPercentage | backend/models/Product.js:157-165 | taking the advertised percentage off the list price lands within half a percent of the price charged |
| ProductModel.NoDiscountFullPrice | backend/models/Product.js:158-164 | a missing or zero discounted price means list price and 0% off |
| ProductModel.InStock | backend/models/Product.js:168-170 | in stock exactly when the stock is above zero |
| ProductModel.InStockValid | backend/models/Product.js:168-170 | a valid product is in stock exactly when its stock is not zero, and selling the last unit puts it out of stock |
| ProductModel.Create | backend/models/Product.js:46-147 | a saved product satisfies the schema; its name and description are the trimmed input; businessId, category, price, discountedPrice and discount are kept; its status is the one given or 'active'; an unknown status, negative price, blank name or unlisted category is rejected |
| ProductModel.CreateAcceptsValid | backend/models/Product.js:46-147 | every product the schema accepts is stored unchanged |
| ProductModel.CreateDefaults | backend/models/Product.js:46-140 | a submission giving only acceptable required fields is accepted, and the product is active, not deleted, imageless, unsold, unrated and out of stock |
| ProductModel.CreateOmittingDefaults | backend/models/Product.js:86-140 | a valid product holding the default values is stored unchanged when the defaulted fields are left out |
| CartModel.ItemCount | backend/models/Cart.js:132-134 | an empty cart counts 0; ItemCountAdd and Tally.SumQuantitiesAtLeastCount fix the rest |
| CartModel.ItemCountAdd | backend/models/Cart.js:132-134 | adding an item raises the count by its quantity |
| CartModel.FormattedTotal | backend/models/Cart.js:137-139 | the formatted total reads back as the total |
| CartModel.LifetimeIsExpiryDays | backend/models/Cart.js:118 | the default lifetime is CART_EXPIRY_DAYS days, 2,592,000,000 ms |
| CartModel.Create | backend/models/Cart.js:65-125 | a saved cart satisfies the schema, expires when given or 30 days after creation, and is active unless told otherwise; missing ids or an invalid item are rejected |
| CartModel.CreateAcceptsValid | backend/models/Cart.js:65-125 | every cart the schema accepts is stored unchanged |
| CartModel.CreateDefaults | backend/models/Cart.js:81-120 | a cart created from two ids is empty, zero-priced with total "0.00", active and expires 30 days on |
| OrderModel.ItemCountAdd | backend/models/Order.js:239-241 | adding a line raises the count by its quantity |
| OrderModel.ItemCount | backend/models/Order.js:239-241 | an empty order counts 0; ItemCountAdd and Tally.SumQuantitiesAtLeastCount fix the rest |
| OrderModel.Create | backend/models/Order.js:132-230 | a saved order satisfies the schema with the given or 'pending' statuses; an unknown payment method, status or payment status, a negative subtotal or total, or an incomplete address is rejected |
| OrderModel.CreateAcceptsValid | backend/models/Order.js:132-230 | every order the schema accepts is stored unchanged |
| OrderModel.CreateDefaults | backend/models/Order.js:132-214 | a submission with acceptable required fields and no statuses or extra charges is accepted, and the order is pending, unpaid, with zero tax, discount and shipping |
| OrderModel.CreateOmittingDefaults | backend/models/Order.js:165-214 | a valid pending, unpaid order without charges is stored unchanged when its statuses and charges are left out |
| Tally.SumQuantitiesAppend | backend/models/Cart.js:133 | the quantity sum adds up across concatenated item lists |
| Tally.SumQuantitiesAtLeastCount | backend/models/Order.js:239-241 | with at least one unit per item (as the cart and order item schemas demand) the sum is at least the item count, equal exactly when each item holds one |

## Left out

- Browser effects are not modelled: storage reads and writes, `window.open`, timers, React state and effects, and all rendering. Storage is a slot value handed to `CartPersistence.Load` and returned by `CartPersistence.Save`.
- JSON text is not modelled. The slot is empty, unreadable (a parse failure), or a pair list.
- CartContext mutates cart objects of the previous Map in place, so the old and new Maps share them. The model uses value semantics: each operation returns a new store and the old one is unchanged.
- Money is integer cents. Floating-point rounding of prices, of `price * quantity` and of `toFixed` is not modelled.
- `parseFloat` is not modelled. `AddProduct.ValidateForm` takes its result as an optional real, with None for NaN.
- Uri.EncodeURIComponent: `encodeURIComponent` throws URIError on a lone surrogate. Dafny strings cannot hold lone surrogates, so that throwing case is not modelled.
- Strings.Lower: `toLowerCase` and `toUpperCase` are modelled for ASCII letters only. Other scripts' case mappings are left out.
- BuyerCart.GroupByBusiness: the page groups into a plain object, so a business id that names an inherited property ("constructor", "toString", "__proto__") finds a truthy value that has no `push`, and the page throws a TypeError. The model forms an ordinary group for every id.
- BuyerCart.GroupOrder: `Object.entries` lists integer-like business ids first, in numeric order. The model keeps first-appearance order for every id.
- BuyerCart.HandleCheckout: when the business has no items, the page would throw while reading the first item. The model returns `NoItems` instead. The page only offers checkout for businesses that have items.
- The user id from `Math.random` is a parameter (`newId`). The current user read from storage is a parameter of type `Option<PublicUser>`.
- `registerBusiness` receives the name, phone and WhatsApp number but does not store them. The model takes and ignores them the same way.
- The mock user list is a parameter, not the module-level array that `registerBusiness` pushes to.
- The `details` payload of `ValidationError` and `BadRequestError`, and the `Error` prototype chain, are not modelled.
- Schema fields with no rule beyond their type are not modelled: product specifications, thumbnail, sku, barcode and deletedAt; order tracking id, estimated delivery, transaction id, notes, cancellation reason and timeline dates.
- Database concerns are not modelled: ObjectId casting (ids are non-empty strings), the `createdAt`/`updatedAt` timestamps, indexes, sku uniqueness and the TTL index that deletes expired carts.
- Mongoose collects every validation error. `ProductModel.Create`, `CartModel.Create` and `OrderModel.Create` only say whether the document is accepted.
- OrderModel.Create does not require a non-empty items list. Whether `required` rejects an empty array depends on the Mongoose version, which is not part of this model.
- ProductModel.DiscountPercentage: a truthy discounted price with price 0 divides by zero in JavaScript. The model requires a positive price in that case.

=== FILE: add_product.dfy ===
/**
 * The add-product form: the access guard, the two ordered checks and the
 * submit handler that only navigates for a valid form.
 */
module AddProduct {
  import opened Wrappers
  import opened Auth

  /** The form as typed; `price` is the raw text of the price field. */
  datatype ProductForm = ProductForm(name: string, price: string, description: string, image: string)

  const MissingFieldsMessage: string := "Please fill in all fields"
  const InvalidPriceMessage: string := "Please enter a valid price"
  const SuccessTarget: string := "/dashboard?success=true"
  const LoginTarget: string := "/login"

  /**
   * `validateForm`. `parsedPrice` is `parseFloat(form.price)`, with None for
   * NaN.
   */
  function ValidateForm(form: ProductForm, parsedPrice: Option<real>): (r: Outcome<string>)
    ensures form.name == [] || form.price == [] || form.description == [] || form.image == [] ==>
      r == Fail(MissingFieldsMessage)
    ensures (form.name != [] && form.price != [] && form.description != [] && form.image != []
             && (parsedPrice.None? || parsedPrice.value <= 0.0)) ==> r == Fail(InvalidPriceMessage)
    ensures r == Pass <==> && form.name != [] && form.price != [] && form.description != [] && form.image != []
                           && parsedPrice.Some? && parsedPrice.value > 0.0
  {
    if form.name == [] || form.price == [] || form.description == [] || form.image == [] then
      Fail(MissingFieldsMessage)
    else if parsedPrice.None? || parsedPrice.value <= 0.0 then Fail(InvalidPriceMessage)
    else Pass
  }

  /** An empty field is reported even when the price is also bad. */
  lemma EmptyFieldTakesPrecedence(form: ProductForm, parsedPrice: Option<real>)
    requires form.name == [] || form.description == [] || form.image == []
    requires parsedPrice.None? || parsedPrice.value <= 0.0
    ensures ValidateForm(form, parsedPrice) == Fail(MissingFieldsMessage)
  {
  }

  datatype AddProductState = AddProductState(error: string, redirectTo: Option<string>)

  /** `handleSubmit`: stop with the message, or go back to the dashboard flagged as a success. */
  function HandleSubmit(form: ProductForm, parsedPrice: Option<real>): (s: AddProductState)
    ensures s.redirectTo.Some? <==> ValidateForm(form, parsedPrice) == Pass
    ensures s.redirectTo.Some? ==> s.redirectTo.value == SuccessTarget && s.error == []
    ensures s.redirectTo.None? ==> s.error == ValidateForm(form, parsedPrice).error
  {
    match ValidateForm(form, parsedPrice)
    case Fail(message) => AddProductState(message, None)
    case Pass => AddProductState("", Some(SuccessTarget))
  }

  /** The page's guard: anyone but a signed-in business user is sent to the login page. */
  function AccessRedirect(current: Option<PublicUser>): (r: Option<string>)
    ensures r.None? <==> IsBusinessUser(current)
    ensures r.Some? ==> r.value == LoginTarget
  {
    if current.None? || !IsBusinessUser(current) then Some(LoginTarget) else None
  }
}

=== FILE: auth.dfy ===
/**
 * The mock authentication over an in-memory user list: login by email
 * (the password is only checked for length), business registration with a
 * unique email, and the business-role test on the current user.
 */
module Auth {
  import opened Wrappers
  import opened Strings

  datatype User = User(id: string, name: string, email: string, password: string, role: string,
                       businessId: Option<string>)

  /** A user record with the password field taken out. */
  datatype PublicUser = PublicUser(id: string, name: string, email: string, role: string, businessId: Option<string>)

  datatype AuthResult = Failure(error: string) | Success(user: PublicUser)

  const BusinessRole: string := "business"

  /** Passwords need at least this many UTF-16 code units. */
  const MinPasswordLength: nat := 6

  function WithoutPassword(u: User): (p: PublicUser)
    ensures p.id == u.id && p.name == u.name && p.email == u.email && p.role == u.role
    ensures p.businessId == u.businessId
  {
    PublicUser(u.id, u.name, u.email, u.role, u.businessId)
  }

  /** `users.find(u => u.email === email)`. */
  function FindByEmail(users: seq<User>, email: string): (r: Option<User>)
    ensures r.Some? ==> r.value in users && r.value.email == email
    ensures r.None? <==> forall i :: 0 <= i < |users| ==> users[i].email != email
    decreases |users|
  {
    if users == [] then None
    else if users[0].email == email then Some(users[0])
    else FindByEmail(users[1..], email)
  }

  /** `loginUser`. */
  function LoginUser(users: seq<User>, email: string, password: string): (r: AuthResult)
    ensures FindByEmail(users, email).None? ==> r == Failure("User not found")
    ensures FindByEmail(users, email).Some? && Utf16Length(password) < MinPasswordLength ==>
      r == Failure("Invalid password")
    ensures r.Success? <==> FindByEmail(users, email).Some? && Utf16Length(password) >= MinPasswordLength
    ensures r.Success? ==> r.user == WithoutPassword(FindByEmail(users, email).value) && r.user.email == email
  {
    match FindByEmail(users, email)
    case None => Failure("User not found")
    case Some(user) =>
      if Utf16Length(password) < MinPasswordLength then Failure("Invalid password")
      else Success(WithoutPassword(user))
  }

  /** No two users share an email. */
  predicate UniqueEmails(users: seq<User>) {
    forall i, j :: 0 <= i < j < |users| ==> users[i].email != users[j].email
  }

  /** The list after `registerBusiness` and what it returned. */
  datatype Registration = Registration(users: seq<User>, result: AuthResult)

  /** The record `registerBusiness` appends; the id is the random one it was handed. */
  function NewBusinessUser(id: string, businessName: string, email: string, password: string): User {
    User(id, businessName, email, password, BusinessRole, None)
  }

  /**
   * `registerBusiness`. The random id is a parameter. The name, phone and
   * whatsapp arguments are accepted and not stored.
   */
  function RegisterBusiness(users: seq<User>, name: string, email: string, phone: string, businessName: string,
                            whatsapp: string, password: string, newId: string): (r: Registration)
    ensures FindByEmail(users, email).Some? ==> r == Registration(users, Failure("Email already registered"))
    ensures FindByEmail(users, email).None? ==>
      && r.users == users + [NewBusinessUser(newId, businessName, email, password)]
      && r.result == Success(WithoutPassword(NewBusinessUser(newId, businessName, email, password)))
  {
    if FindByEmail(users, email).Some? then Registration(users, Failure("Email already registered"))
    else
      var user := NewBusinessUser(newId, businessName, email, password);
      Registration(users + [user], Success(WithoutPassword(user)))
  }

  /** Registration keeps emails unique. */
  lemma RegisterKeepsEmailsUnique(users: seq<User>, name: string, email: string, phone: string,
                                  businessName: string, whatsapp: string, password: string, newId: string)
    requires UniqueEmails(users)
    ensures UniqueEmails(RegisterBusiness(users, name, email, phone, businessName, whatsapp, password, newId).users)
  {
  }

  /** Finding an email in a longer list finds the earlier user first. */
  lemma {:induction false} FindByEmailAppend(users: seq<User>, more: seq<User>, email: string)
    ensures FindByEmail(users + more, email)
            == if FindByEmail(users, email).Some? then FindByEmail(users, email) else FindByEmail(more, email)
    decreases |users|
  {
    if users == [] {
      assert users + more == more;
    } else {
      assert (users + more)[0] == users[0] && (users + more)[1..] == users[1..] + more;
      FindByEmailAppend(users[1..], more, email);
    }
  }

  /** After registering, that email logs in with any password of six or more code units. */
  lemma RegisterThenLogin(users: seq<User>, name: string, email: string, phone: string, businessName: string,
                          whatsapp: string, password: string, newId: string, attempt: string)
    requires FindByEmail(users, email).None?
    requires Utf16Length(attempt) >= MinPasswordLength
    ensures var reg := RegisterBusiness(users, name, email, phone, businessName, whatsapp, password, newId);
            LoginUser(reg.users, email, attempt) == reg.result
  {
    var user := NewBusinessUser(newId, businessName, email, password);
    FindByEmailAppend(users, [user], email);
    assert FindByEmail([user], email) == Some(user);
  }

  /** Login never looks at the stored password: changing it changes no outcome. */
  lemma {:induction false} LoginIgnoresStoredPassword(users: seq<User>, i: nat, stored: string, email: string,
                                                      password: string)
    requires i < |users|
    ensures LoginUser(users[i := users[i].(password := stored)], email, password) == LoginUser(users, email, password)
    decreases i
  {
    var changed := users[i := users[i].(password := stored)];
    if i > 0 {
      LoginIgnoresStoredPassword(users[1..], i - 1, stored, email, password);
      assert changed[1..] == users[1..][i - 1 := users[i].(password := stored)];
    }
  }

  /** `isBusinessUser`, with the stored current user passed in. */
  function IsBusinessUser(current: Option<PublicUser>): (r: bool)
    ensures r <==> current.Some? && current.value.role == BusinessRole
  {
    match current
    case Some(user) => user.role == BusinessRole
    case None => false
  }

  /** The user a successful registration returns is a business user. */
  lemma RegisteredIsBusiness(users: seq<User>, name: string, email: string, phone: string, businessName: string,
                             whatsapp: string, password: string, newId: string)
    requires FindByEmail(users, email).None?
    ensures var reg := RegisterBusiness(users, name, email, phone, businessName, whatsapp, password, newId);
            reg.result.Success? && IsBusinessUser(Some(reg.result.user))
            && reg.result.user.name == businessName && reg.result.user.email == email
  {
  }
}

=== FILE: buyer_cart.dfy ===
/**
 * The buyer's flat cart page: one list of items from any number of
 * businesses, grouped by business for display, with a whole-cart total,
 * per-business subtotals, removal of one item and a per-business checkout
 * that hands the order to WhatsApp.
 */
module BuyerCart {
  import opened Wrappers
  import opened OrderedMap
  import Money
  import opened WhatsApp

  /** One cart entry; `price` is in cents. */
  datatype FlatItem = FlatItem(productId: string, businessId: string, name: string, price: int, quantity: int,
                               businessName: string, whatsapp: string)

  /** What the buyer typed into the order form. */
  datatype BuyerInfo = BuyerInfo(name: string, phone: string)

  function Amount(x: FlatItem): int {
    Money.LineAmount(x.price, x.quantity)
  }

  // ---------------------------------------------------------------------
  // Totals

  /** `calculateTotal`: a left-to-right `reduce` of price × quantity from 0. */
  function CalculateTotal(cart: seq<FlatItem>): (total: int)
    ensures cart == [] ==> total == 0
    ensures |cart| == 1 ==> total == Amount(cart[0])
    decreases |cart|
  {
    if cart == [] then 0 else CalculateTotal(cart[..|cart| - 1]) + Amount(cart[|cart| - 1])
  }

  /** The total of two lists side by side is the sum of their totals. */
  lemma {:induction false} CalculateTotalAppend(a: seq<FlatItem>, b: seq<FlatItem>)
    ensures CalculateTotal(a + b) == CalculateTotal(a) + CalculateTotal(b)
    decreases |b|
  {
    if b != [] {
      var init := b[..|b| - 1];
      assert (a + b)[..|a + b| - 1] == a + init;
      assert (a + b)[|a + b| - 1] == b[|b| - 1];
      CalculateTotalAppend(a, init);
    } else {
      assert a + b == a;
    }
  }

  /** No negative prices or quantities, no negative total. */
  lemma {:induction false} CalculateTotalNonNegative(cart: seq<FlatItem>)
    requires forall i :: 0 <= i < |cart| ==> cart[i].price >= 0 && cart[i].quantity >= 0
    ensures CalculateTotal(cart) >= 0
    decreases |cart|
  {
    if cart != [] {
      CalculateTotalNonNegative(cart[..|cart| - 1]);
    }
  }

  // ---------------------------------------------------------------------
  // One business's items

  /** `cart.filter(item => item.businessId === businessId)`. */
  function ForBusiness(cart: seq<FlatItem>, businessId: string): (r: seq<FlatItem>)
    ensures forall x :: x in r <==> x in cart && x.businessId == businessId
    ensures |r| <= |cart|
    decreases |cart|
  {
    if cart == [] then []
    else
      var init := ForBusiness(cart[..|cart| - 1], businessId);
      var last := cart[|cart| - 1];
      assert cart == cart[..|cart| - 1] + [last];
      if last.businessId == businessId then init + [last] else init
  }

  /** Filtering distributes over concatenation, so it keeps the cart's order. */
  lemma {:induction false} ForBusinessAppend(a: seq<FlatItem>, b: seq<FlatItem>, businessId: string)
    ensures ForBusiness(a + b, businessId) == ForBusiness(a, businessId) + ForBusiness(b, businessId)
    decreases |b|
  {
    if b == [] {
      assert a + b == a;
    } else {
      var init := b[..|b| - 1];
      assert (a + b)[..|a + b| - 1] == a + init;
      assert (a + b)[|a + b| - 1] == b[|b| - 1];
      ForBusinessAppend(a, init, businessId);
    }
  }

  /** Items of other businesses never reach a business's list. */
  lemma {:induction false} ForBusinessOthers(cart: seq<FlatItem>, businessId: string)
    requires forall i :: 0 <= i < |cart| ==> cart[i].businessId != businessId
    ensures ForBusiness(cart, businessId) == []
    decreases |cart|
  {
    if cart != [] {
      ForBusinessOthers(cart[..|cart| - 1], businessId);
    }
  }

  // ---------------------------------------------------------------------
  // Grouping

  /** The grouping object: businessId to that business's items, keys in first-appearance order. */
  type Groups = Entries<string, seq<FlatItem>>

  /** One step of the grouping `reduce`: create the group if needed, then push. */
  function Push(groups: Groups, x: FlatItem): Groups {
    match Get(groups, x.businessId)
    case None => Set(groups, x.businessId, [x])
    case Some(items) => Set(groups, x.businessId, items + [x])
  }

  lemma PushDistinct(groups: Groups, x: FlatItem)
    requires DistinctKeys(groups)
    ensures DistinctKeys(Push(groups, x))
  {
    match Get(groups, x.businessId)
    case None => SetDistinct(groups, x.businessId, [x]);
    case Some(items) => SetDistinct(groups, x.businessId, items + [x]);
  }

  /** `cartByBusiness`. */
  function GroupByBusiness(cart: seq<FlatItem>): (groups: Groups)
    ensures DistinctKeys(groups)
    decreases |cart|
  {
    if cart == [] then []
    else
      var acc := GroupByBusiness(cart[..|cart| - 1]);
      var x := cart[|cart| - 1];
      PushDistinct(acc, x);
      Push(acc, x)
  }

  /** A push extends only the item's own group, creating it when missing. */
  lemma PushGet(groups: Groups, x: FlatItem, businessId: string)
    ensures Get(Push(groups, x), businessId)
            == if x.businessId == businessId then Some(Get(groups, businessId).GetOr([]) + [x])
               else Get(groups, businessId)
  {
    match Get(groups, x.businessId)
    case None => {
      SetGet(groups, x.businessId, [x], businessId);
      assert [] + [x] == [x];
    }
    case Some(items) => {
      SetGet(groups, x.businessId, items + [x], businessId);
    }
  }

  /** Each business's group is exactly its items in cart order; businesses with no items have none. */
  lemma {:induction false} GroupLookup(cart: seq<FlatItem>, businessId: string)
    ensures Get(GroupByBusiness(cart), businessId)
            == if ForBusiness(cart, businessId) == [] then None else Some(ForBusiness(cart, businessId))
    decreases |cart|
  {
    if cart != [] {
      var init := cart[..|cart| - 1];
      var x := cart[|cart| - 1];
      GroupLookup(init, businessId);
      PushGet(GroupByBusiness(init), x, businessId);
    }
  }

  /** The businessIds in the order their first item appears. */
  function FirstAppearance(cart: seq<FlatItem>): (ids: seq<string>)
    ensures forall b :: b in ids <==> ForBusiness(cart, b) != []
    decreases |cart|
  {
    if cart == [] then []
    else
      var ids := FirstAppearance(cart[..|cart| - 1]);
      var b := cart[|cart| - 1].businessId;
      assert ForBusiness(cart, b) != [];
      if b in ids then ids else ids + [b]
  }

  /** The groups come in the order their business first appears in the cart. */
  lemma {:induction false} GroupOrder(cart: seq<FlatItem>)
    ensures KeyOrder(GroupByBusiness(cart)) == FirstAppearance(cart)
    decreases |cart|
  {
    if cart != [] {
      var init := cart[..|cart| - 1];
      var x := cart[|cart| - 1];
      var acc := GroupByBusiness(init);
      GroupOrder(init);
      GroupLookup(init, x.businessId);
      KeyOrderKeys(acc, x.businessId);
      match Get(acc, x.businessId)
      case None => {
        SetKeyOrder(acc, x.businessId, [x]);
      }
      case Some(items) => {
        SetKeyOrder(acc, x.businessId, items + [x]);
      }
    }
  }

  /** The per-group subtotals (the `reduce` under each group), added up. */
  function GroupsTotal(groups: Groups): int
    decreases |groups|
  {
    if groups == [] then 0 else CalculateTotal(groups[0].1) + GroupsTotal(groups[1..])
  }

  /** All groups' items, group after group. */
  function Flatten(groups: Groups): seq<FlatItem>
    decreases |groups|
  {
    if groups == [] then [] else groups[0].1 + Flatten(groups[1..])
  }

  lemma {:induction false} GroupsTotalSnoc(groups: Groups, e: (string, seq<FlatItem>))
    ensures GroupsTotal(groups + [e]) == GroupsTotal(groups) + CalculateTotal(e.1)
    decreases |groups|
  {
    if groups == [] {
      assert [] + [e] == [e];
    } else {
      assert (groups + [e])[0] == groups[0] && (groups + [e])[1..] == groups[1..] + [e];
      GroupsTotalSnoc(groups[1..], e);
    }
  }

  lemma {:induction false} FlattenSnoc(groups: Groups, e: (string, seq<FlatItem>))
    ensures Flatten(groups + [e]) == Flatten(groups) + e.1
    decreases |groups|
  {
    if groups == [] {
      assert [] + [e] == [e];
      assert Flatten([e]) == e.1 + Flatten([]);
    } else {
      assert (groups + [e])[0] == groups[0] && (groups + [e])[1..] == groups[1..] + [e];
      FlattenSnoc(groups[1..], e);
    }
  }

  /** Pushing onto an existing group adds the item's amount and the item itself. */
  lemma {:induction false} GroupsExtend(groups: Groups, businessId: string, items: seq<FlatItem>, x: FlatItem)
    requires Get(groups, businessId) == Some(items)
    ensures GroupsTotal(Set(groups, businessId, items + [x])) == GroupsTotal(groups) + Amount(x)
    ensures multiset(Flatten(Set(groups, businessId, items + [x]))) == multiset(Flatten(groups)) + multiset{x}
    decreases |groups|
  {
    var r := Set(groups, businessId, items + [x]);
    CalculateTotalAppend(items, [x]);
    assert [x][..0] == [];
    if groups[0].0 == businessId {
      assert r == [(businessId, items + [x])] + groups[1..];
      assert r[1..] == groups[1..];
    } else {
      var tail := Set(groups[1..], businessId, items + [x]);
      assert r == [groups[0]] + tail;
      assert r[0] == groups[0] && r[1..] == tail;
      GroupsExtend(groups[1..], businessId, items, x);
    }
  }

  /** The per-business subtotals add up to the whole-cart total. */
  lemma {:induction false} GroupTotals(cart: seq<FlatItem>)
    ensures GroupsTotal(GroupByBusiness(cart)) == CalculateTotal(cart)
    decreases |cart|
  {
    if cart != [] {
      var init := cart[..|cart| - 1];
      var x := cart[|cart| - 1];
      var acc := GroupByBusiness(init);
      GroupTotals(init);
      match Get(acc, x.businessId)
      case None => {
        GroupsTotalSnoc(acc, (x.businessId, [x]));
        assert [x][..0] == [];
      }
      case Some(items) => {
        GroupsExtend(acc, x.businessId, items, x);
      }
    }
  }

  /** The groups together hold exactly the cart's items: a permutation of the cart. */
  lemma {:induction false} GroupPermutation(cart: seq<FlatItem>)
    ensures multiset(Flatten(GroupByBusiness(cart))) == multiset(cart)
    decreases |cart|
  {
    if cart != [] {
      var init := cart[..|cart| - 1];
      var x := cart[|cart| - 1];
      var acc := GroupByBusiness(init);
      GroupPermutation(init);
      assert cart == init + [x];
      match Get(acc, x.businessId)
      case None => {
        FlattenSnoc(acc, (x.businessId, [x]));
      }
      case Some(items) => {
        GroupsExtend(acc, x.businessId, items, x);
      }
    }
  }

  // ---------------------------------------------------------------------
  // Removal

  /** `handleRemoveItem`: drop the items matching both the business and the product. */
  function HandleRemoveItem(cart: seq<FlatItem>, businessId: string, productId: string): (r: seq<FlatItem>)
    ensures forall x :: x in r <==> x in cart && !(x.businessId == businessId && x.productId == productId)
    ensures |r| <= |cart|
    decreases |cart|
  {
    if cart == [] then []
    else
      var rest := HandleRemoveItem(cart[1..], businessId, productId);
      assert cart == [cart[0]] + cart[1..];
      if cart[0].businessId == businessId && cart[0].productId == productId then rest else [cart[0]] + rest
  }

  /** Removal works piecewise, so the items kept stay in their order. */
  lemma {:induction false} RemoveItemAppend(a: seq<FlatItem>, b: seq<FlatItem>, businessId: string, productId: string)
    ensures HandleRemoveItem(a + b, businessId, productId)
            == HandleRemoveItem(a, businessId, productId) + HandleRemoveItem(b, businessId, productId)
    decreases |a|
  {
    if a == [] {
      assert a + b == b;
    } else {
      assert (a + b)[0] == a[0] && (a + b)[1..] == a[1..] + b;
      RemoveItemAppend(a[1..], b, businessId, productId);
    }
  }

  /** Removing an item that is not there changes nothing. */
  lemma {:induction false} RemoveItemAbsent(cart: seq<FlatItem>, businessId: string, productId: string)
    requires forall i :: 0 <= i < |cart| ==> !(cart[i].businessId == businessId && cart[i].productId == productId)
    ensures HandleRemoveItem(cart, businessId, productId) == cart
    decreases |cart|
  {
    if cart != [] {
      RemoveItemAbsent(cart[1..], businessId, productId);
    }
  }

  /** Removal leaves every other business's items exactly as they were. */
  lemma {:induction false} RemoveItemOtherBusiness(cart: seq<FlatItem>, businessId: string, productId: string,
                                                   other: string)
    requires other != businessId
    ensures ForBusiness(HandleRemoveItem(cart, businessId, productId), other) == ForBusiness(cart, other)
    decreases |cart|
  {
    if cart != [] {
      var rest := HandleRemoveItem(cart[1..], businessId, productId);
      RemoveItemOtherBusiness(cart[1..], businessId, productId, other);
      ForBusinessAppend([cart[0]], cart[1..], other);
      assert [cart[0]] + cart[1..] == cart;
      if !(cart[0].businessId == businessId && cart[0].productId == productId) {
        ForBusinessAppend([cart[0]], rest, other);
      } else {
        assert ForBusiness([cart[0]], other) == [] by {
          ForBusinessOthers([cart[0]], other);
        }
      }
    }
  }

  // ---------------------------------------------------------------------
  // Checkout

  /** The lines the message template reads from the items. */
  function OrderLines(items: seq<FlatItem>): (lines: seq<OrderLine>)
    ensures |lines| == |items|
    ensures forall i :: 0 <= i < |items| ==>
      lines[i] == OrderLine(items[i].name, items[i].price, items[i].quantity)
  {
    seq(|items|, i requires 0 <= i < |items| => OrderLine(items[i].name, items[i].price, items[i].quantity))
  }

  /**
   * What `handleCheckout` does: nothing without the buyer's name and phone,
   * a failure when the business has no items (reading the first item of an
   * empty list throws), otherwise the WhatsApp link with that business's total.
   */
  datatype Checkout = MissingBuyerInfo | NoItems | Opened(link: string, total: int)

  function HandleCheckout(cart: seq<FlatItem>, buyer: BuyerInfo, businessId: string): (r: Checkout)
    ensures r == MissingBuyerInfo <==> buyer.name == [] || buyer.phone == []
    ensures r == NoItems <==> buyer.name != [] && buyer.phone != [] && ForBusiness(cart, businessId) == []
    ensures r.Opened? ==>
      var items := ForBusiness(cart, businessId);
      && items != []
      && r.total == CalculateTotal(items)
      && ParseLink(r.link)
         == Some((DigitsOnly(items[0].whatsapp),
                  Message(buyer.name, buyer.phone, OrderLines(items), items[0].businessName, r.total)))
  {
    if buyer.name == [] || buyer.phone == [] then MissingBuyerInfo
    else
      var items := ForBusiness(cart, businessId);
      if items == [] then NoItems
      else
        var total := CalculateTotal(items);
        var first := items[0];
        Opened(GenerateLink(first.whatsapp, buyer.name, buyer.phone, OrderLines(items), first.businessName, total),
               total)
  }

  /** Checkout for a business is unaffected by items of other businesses. */
  lemma CheckoutIgnoresOthers(cart: seq<FlatItem>, extra: seq<FlatItem>, buyer: BuyerInfo, businessId: string)
    requires forall i :: 0 <= i < |extra| ==> extra[i].businessId != businessId
    ensures HandleCheckout(cart + extra, buyer, businessId) == HandleCheckout(cart, buyer, businessId)
    ensures HandleCheckout(extra + cart, buyer, businessId) == HandleCheckout(cart, buyer, businessId)
  {
    ForBusinessAppend(cart, extra, businessId);
    ForBusinessAppend(extra, cart, businessId);
    ForBusinessOthers(extra, businessId);
    assert ForBusiness(cart, businessId) + [] == ForBusiness(cart, businessId);
    assert [] + ForBusiness(cart, businessId) == ForBusiness(cart, businessId);
  }

  /** The checkout total is that business's subtotal as displayed in its group. */
  lemma CheckoutTotalIsGroupSubtotal(cart: seq<FlatItem>, buyer: BuyerInfo, businessId: string)
    requires buyer.name != [] && buyer.phone != [] && ForBusiness(cart, businessId) != []
    ensures HandleCheckout(cart, buyer, businessId).Opened?
    ensures Get(GroupByBusiness(cart), businessId).Some?
    ensures HandleCheckout(cart, buyer, businessId).total
            == CalculateTotal(Get(GroupByBusiness(cart), businessId).value)
  {
    GroupLookup(cart, businessId);
  }
}

=== FILE: cart_context.dfy ===
/**
 * The buyer's per-business cart store: a JavaScript Map from businessId to
 * that business's cart, with the operations the cart context offers to the
 * pages (add, remove, update quantity, look up, clear, total).
 */
module CartContext {
  import opened Wrappers
  import opened OrderedMap
  import Money

  /** One product line; `price` is in cents, captured when first added. */
  datatype CartItem = CartItem(productId: string, name: string, price: int, quantity: int, image: Option<string>)

  datatype BusinessCart = BusinessCart(businessId: string, businessName: string, businessPhone: string, items: seq<CartItem>)

  /** The store, in the Map's insertion order. */
  type Carts = Entries<string, BusinessCart>

  // ---------------------------------------------------------------------
  // Item-list helpers

  /** `items.find(item => item.productId === productId)`, as an index. */
  function FindItem(items: seq<CartItem>, productId: string): (r: Option<nat>)
    ensures r.Some? ==> r.value < |items| && items[r.value].productId == productId
    ensures r.Some? ==> forall j :: 0 <= j < r.value ==> items[j].productId != productId
    ensures r.None? ==> forall j :: 0 <= j < |items| ==> items[j].productId != productId
    decreases |items|
  {
    if items == [] then None
    else if items[0].productId == productId then Some(0)
    else
      match FindItem(items[1..], productId)
      case None => None
      case Some(i) => Some(i + 1)
  }

  /** The merge step of `addToCart` inside an existing cart. */
  function MergeItem(items: seq<CartItem>, product: CartItem): (r: seq<CartItem>)
    ensures FindItem(items, product.productId).None? ==> r == items + [product]
    ensures FindItem(items, product.productId).Some? ==>
      var i := FindItem(items, product.productId).value;
      && |r| == |items|
      && r[i] == items[i].(quantity := items[i].quantity + product.quantity)
      && forall j :: 0 <= j < |items| && j != i ==> r[j] == items[j]
  {
    match FindItem(items, product.productId)
    case Some(i) => items[i := items[i].(quantity := items[i].quantity + product.quantity)]
    case None => items + [product]
  }

  /** `items.filter(item => item.productId !== productId)`. */
  function WithoutProduct(items: seq<CartItem>, productId: string): (r: seq<CartItem>)
    ensures forall x :: x in r <==> x in items && x.productId != productId
    ensures |r| <= |items|
    ensures |items| == 1 ==> r == if items[0].productId == productId then [] else items
    decreases |items|
  {
    if items == [] then []
    else if items[0].productId == productId then WithoutProduct(items[1..], productId)
    else [items[0]] + WithoutProduct(items[1..], productId)
  }

  /** The filter works piecewise, so the kept lines stay in their original order. */
  lemma {:induction false} WithoutProductAppend(a: seq<CartItem>, b: seq<CartItem>, productId: string)
    ensures WithoutProduct(a + b, productId) == WithoutProduct(a, productId) + WithoutProduct(b, productId)
    decreases |a|
  {
    if a == [] {
      assert a + b == b;
    } else {
      assert (a + b)[0] == a[0] && (a + b)[1..] == a[1..] + b;
      WithoutProductAppend(a[1..], b, productId);
    }
  }

  /** The lines `WithoutProduct` drops. */
  function OnlyProduct(items: seq<CartItem>, productId: string): seq<CartItem>
    decreases |items|
  {
    if items == [] then []
    else if items[0].productId == productId then [items[0]] + OnlyProduct(items[1..], productId)
    else OnlyProduct(items[1..], productId)
  }

  /** Sum of price × quantity over the lines. */
  function ItemsTotal(items: seq<CartItem>): (total: int)
    ensures items == [] ==> total == 0
    ensures |items| == 1 ==> total == Money.LineAmount(items[0].price, items[0].quantity)
    decreases |items|
  {
    if items == [] then 0 else Money.LineAmount(items[0].price, items[0].quantity) + ItemsTotal(items[1..])
  }

  // ---------------------------------------------------------------------
  // Store operations

  /**
   * `addToCart`: a repeated productId adds to that line's quantity; a new
   * one is appended; a business with no cart gets a fresh one-line cart.
   */
  function AddToCart(carts: Carts, businessId: string, businessName: string, businessPhone: string,
                     product: CartItem): (r: Carts)
    ensures forall b :: b != businessId ==> Get(r, b) == Get(carts, b)
    ensures Get(carts, businessId).None? ==>
      r == carts + [(businessId, BusinessCart(businessId, businessName, businessPhone, [product]))]
    ensures Get(carts, businessId).Some? ==>
      var old_ := Get(carts, businessId).value;
      && |r| == |carts|
      && KeyOrder(r) == KeyOrder(carts)
      && Get(r, businessId) == Some(old_.(items := MergeItem(old_.items, product)))
  {
    match Get(carts, businessId)
    case Some(cart) =>
      var updated := cart.(items := MergeItem(cart.items, product));
      SetKeyOrder(carts, businessId, updated);
      SetGetAll(carts, businessId, updated);
      Set(carts, businessId, updated)
    case None =>
      var created := BusinessCart(businessId, businessName, businessPhone, [product]);
      SetGetAll(carts, businessId, created);
      Set(carts, businessId, created)
  }

  /**
   * `removeFromCart`: drops every line with that productId, and the whole
   * cart once no line is left; an absent business is left alone.
   */
  function RemoveFromCart(carts: Carts, businessId: string, productId: string): (r: Carts)
    ensures forall b :: b != businessId ==> Get(r, b) == Get(carts, b)
    ensures Get(carts, businessId).None? ==> r == carts
    ensures Get(carts, businessId).Some? ==>
      var old_ := Get(carts, businessId).value;
      var kept := WithoutProduct(old_.items, productId);
      && (kept == [] ==> Get(r, businessId).None? && KeyOrder(r) == WithoutKey(KeyOrder(carts), businessId))
      && (kept != [] ==> Get(r, businessId) == Some(old_.(items := kept)) && KeyOrder(r) == KeyOrder(carts))
  {
    match Get(carts, businessId)
    case Some(cart) =>
      var kept := WithoutProduct(cart.items, productId);
      if kept == [] then
        DeleteKeyOrder(carts, businessId);
        Delete(carts, businessId)
      else
        SetKeyOrder(carts, businessId, cart.(items := kept));
        SetGetAll(carts, businessId, cart.(items := kept));
        Set(carts, businessId, cart.(items := kept))
    case None => carts
  }

  /** `Math.max(1, quantity)`. */
  function AtLeastOne(quantity: int): (q: int)
    ensures q >= 1
    ensures quantity >= 1 ==> q == quantity
    ensures quantity <= 1 ==> q == 1
  {
    if quantity > 1 then quantity else 1
  }

  /**
   * `updateQuantity`: sets the first matching line's quantity to
   * max(1, quantity); no line is ever deleted, and an absent cart or
   * product leaves the store as it is.
   */
  function UpdateQuantity(carts: Carts, businessId: string, productId: string, quantity: int): (r: Carts)
    ensures forall b :: b != businessId ==> Get(r, b) == Get(carts, b)
    ensures |r| == |carts|
    ensures KeyOrder(r) == KeyOrder(carts)
    ensures Get(carts, businessId).None? ==> r == carts
    ensures Get(carts, businessId).Some? && FindItem(Get(carts, businessId).value.items, productId).None? ==>
      r == carts
    ensures Get(carts, businessId).Some? && FindItem(Get(carts, businessId).value.items, productId).Some? ==>
      var old_ := Get(carts, businessId).value;
      var i := FindItem(old_.items, productId).value;
      && Get(r, businessId).Some?
      && var new_ := Get(r, businessId).value;
      && new_.businessName == old_.businessName && new_.businessPhone == old_.businessPhone
      && |new_.items| == |old_.items|
      && new_.items[i] == old_.items[i].(quantity := AtLeastOne(quantity))
      && forall j :: 0 <= j < |old_.items| && j != i ==> new_.items[j] == old_.items[j]
  {
    match Get(carts, businessId)
    case Some(cart) =>
      (match FindItem(cart.items, productId)
       case Some(i) =>
         var updated := cart.(items := cart.items[i := cart.items[i].(quantity := AtLeastOne(quantity))]);
         SetKeyOrder(carts, businessId, updated);
         SetGetAll(carts, businessId, updated);
         Set(carts, businessId, updated)
       case None => carts)
    case None => carts
  }

  /** `getBusinessCart`. */
  function GetBusinessCart(carts: Carts, businessId: string): (r: Option<BusinessCart>)
    ensures r.Some? <==> businessId in Keys(carts)
    ensures r.Some? ==> (businessId, r.value) in carts
  {
    Get(carts, businessId)
  }

  /** `clearBusinessCart`: removes that one key and nothing else. */
  function ClearBusinessCart(carts: Carts, businessId: string): (r: Carts)
    ensures Get(r, businessId).None?
    ensures forall b :: b != businessId ==> Get(r, b) == Get(carts, b)
    ensures Keys(r) == Keys(carts) - {businessId}
    ensures KeyOrder(r) == WithoutKey(KeyOrder(carts), businessId)
  {
    DeleteKeyOrder(carts, businessId);
    Delete(carts, businessId)
  }

  /** `getCartTotal`: 0 without a cart, else the sum of price × quantity. */
  function GetCartTotal(carts: Carts, businessId: string): (t: int)
    ensures Get(carts, businessId).None? ==> t == 0
    ensures Get(carts, businessId).Some? ==> t == ItemsTotal(Get(carts, businessId).value.items)
  {
    match Get(carts, businessId)
    case Some(cart) => ItemsTotal(cart.items)
    case None => 0
  }

  // ---------------------------------------------------------------------
  // Invariant of every store the operations build

  predicate DistinctProducts(items: seq<CartItem>) {
    forall i, j :: 0 <= i < j < |items| ==> items[i].productId != items[j].productId
  }

  /** A stored cart: keyed by its own id, never empty, one line per product, positive quantities. */
  predicate CartOk(key: string, cart: BusinessCart) {
    && cart.businessId == key
    && |cart.items| > 0
    && DistinctProducts(cart.items)
    && forall i :: 0 <= i < |cart.items| ==> cart.items[i].quantity >= 1
  }

  predicate WellFormed(carts: Carts) {
    && DistinctKeys(carts)
    && forall e :: e in carts ==> CartOk(e.0, e.1)
  }

  lemma EmptyWellFormed()
    ensures WellFormed([])
  {
  }

  lemma MergeItemOk(key: string, cart: BusinessCart, product: CartItem)
    requires CartOk(key, cart) && product.quantity >= 1
    ensures CartOk(key, cart.(items := MergeItem(cart.items, product)))
  {
    var r := MergeItem(cart.items, product);
    if FindItem(cart.items, product.productId).None? {
      forall i, j | 0 <= i < j < |r|
        ensures r[i].productId != r[j].productId
      {
        if j < |cart.items| {
          assert r[i] == cart.items[i] && r[j] == cart.items[j];
        } else {
          assert r[i] == cart.items[i];
        }
      }
    }
  }

  lemma ConsDistinct(x: CartItem, w: seq<CartItem>)
    requires DistinctProducts(w)
    requires forall y :: y in w ==> y.productId != x.productId
    ensures DistinctProducts([x] + w)
  {
    var r := [x] + w;
    forall i, j | 0 <= i < j < |r|
      ensures r[i].productId != r[j].productId
    {
      assert r[j] == w[j - 1];
      if i > 0 {
        assert r[i] == w[i - 1];
      } else {
        assert r[j] in w;
      }
    }
  }

  lemma HeadNotInTail(items: seq<CartItem>)
    requires DistinctProducts(items) && items != []
    ensures forall y :: y in items[1..] ==> y.productId != items[0].productId
  {
    forall y | y in items[1..]
      ensures y.productId != items[0].productId
    {
      var k :| 0 <= k < |items[1..]| && items[1..][k] == y;
      assert items[k + 1] == y;
    }
  }

  lemma {:induction false} WithoutProductDistinct(items: seq<CartItem>, productId: string)
    requires DistinctProducts(items)
    ensures DistinctProducts(WithoutProduct(items, productId))
    decreases |items|
  {
    if items != [] {
      var tail := items[1..];
      assert DistinctProducts(tail) by {
        forall i, j | 0 <= i < j < |tail|
          ensures tail[i].productId != tail[j].productId
        {
          assert tail[i] == items[i + 1] && tail[j] == items[j + 1];
        }
      }
      WithoutProductDistinct(tail, productId);
      if items[0].productId != productId {
        HeadNotInTail(items);
        ConsDistinct(items[0], WithoutProduct(tail, productId));
      }
    }
  }

  /** Adding a product with a positive quantity keeps the store well formed. */
  lemma AddToCartPreserves(carts: Carts, businessId: string, businessName: string, businessPhone: string,
                           product: CartItem)
    requires WellFormed(carts) && product.quantity >= 1
    ensures WellFormed(AddToCart(carts, businessId, businessName, businessPhone, product))
  {
    match Get(carts, businessId)
    case Some(cart) =>
      var updated := cart.(items := MergeItem(cart.items, product));
      MergeItemOk(businessId, cart, product);
      SetDistinct(carts, businessId, updated);
    case None =>
      var created := BusinessCart(businessId, businessName, businessPhone, [product]);
      SetDistinct(carts, businessId, created);
  }

  lemma RemoveFromCartPreserves(carts: Carts, businessId: string, productId: string)
    requires WellFormed(carts)
    ensures WellFormed(RemoveFromCart(carts, businessId, productId))
  {
    match Get(carts, businessId)
    case Some(cart) =>
      var kept := WithoutProduct(cart.items, productId);
      if kept != [] {
        WithoutProductDistinct(cart.items, productId);
        forall i | 0 <= i < |kept|
          ensures kept[i].quantity >= 1
        {
          assert kept[i] in cart.items;
        }
        SetDistinct(carts, businessId, cart.(items := kept));
      }
    case None =>
  }

  lemma UpdateQuantityPreserves(carts: Carts, businessId: string, productId: string, quantity: int)
    requires WellFormed(carts)
    ensures WellFormed(UpdateQuantity(carts, businessId, productId, quantity))
  {
    match Get(carts, businessId)
    case Some(cart) => {
      match FindItem(cart.items, productId) {
        case Some(i) =>
          var updated := cart.(items := cart.items[i := cart.items[i].(quantity := AtLeastOne(quantity))]);
          assert CartOk(businessId, updated);
          SetDistinct(carts, businessId, updated);
        case None =>
      }
    }
    case None =>
  }

  lemma ClearBusinessCartPreserves(carts: Carts, businessId: string)
    requires WellFormed(carts)
    ensures WellFormed(ClearBusinessCart(carts, businessId))
  {
  }

  // ---------------------------------------------------------------------
  // Totals

  /** The unit price the merged line carries: the first-added price wins. */
  function PriceOnAdd(carts: Carts, businessId: string, product: CartItem): int {
    match Get(carts, businessId)
    case Some(cart) =>
      (match FindItem(cart.items, product.productId)
       case Some(i) => cart.items[i].price
       case None => product.price)
    case None => product.price
  }

  lemma {:induction false} ItemsTotalUpdate(items: seq<CartItem>, i: nat, x: CartItem)
    requires i < |items|
    ensures ItemsTotal(items[i := x]) ==
            ItemsTotal(items) - Money.LineAmount(items[i].price, items[i].quantity) + Money.LineAmount(x.price, x.quantity)
    decreases i
  {
    if i > 0 {
      ItemsTotalUpdate(items[1..], i - 1, x);
      assert items[i := x][1..] == items[1..][i - 1 := x];
    }
  }

  lemma {:induction false} ItemsTotalAppend(a: seq<CartItem>, b: seq<CartItem>)
    ensures ItemsTotal(a + b) == ItemsTotal(a) + ItemsTotal(b)
    decreases |a|
  {
    if a == [] {
      assert a + b == b;
    } else {
      assert (a + b)[0] == a[0] && (a + b)[1..] == a[1..] + b;
      ItemsTotalAppend(a[1..], b);
    }
  }

  lemma {:induction false} ItemsTotalSplit(items: seq<CartItem>, productId: string)
    ensures ItemsTotal(items) == ItemsTotal(WithoutProduct(items, productId)) + ItemsTotal(OnlyProduct(items, productId))
    decreases |items|
  {
    if items != [] {
      ItemsTotalSplit(items[1..], productId);
      var w := WithoutProduct(items[1..], productId);
      var o := OnlyProduct(items[1..], productId);
      if items[0].productId == productId {
        assert ([items[0]] + o)[1..] == o;
      } else {
        assert ([items[0]] + w)[1..] == w;
      }
    }
  }

  /** Merging a product raises the lines' total by the added quantity at the line's price. */
  lemma MergeItemTotal(items: seq<CartItem>, product: CartItem)
    ensures var price := match FindItem(items, product.productId)
                         case Some(i) => items[i].price
                         case None => product.price;
      ItemsTotal(MergeItem(items, product)) == ItemsTotal(items) + Money.LineAmount(price, product.quantity)
  {
    match FindItem(items, product.productId)
    case Some(i) =>
      var line := items[i];
      var merged := line.(quantity := line.quantity + product.quantity);
      assert MergeItem(items, product) == items[i := merged];
      ItemsTotalUpdate(items, i, merged);
      assert line.price * (line.quantity + product.quantity) == line.price * line.quantity + line.price * product.quantity;
    case None =>
      ItemsTotalAppend(items, [product]);
      assert ItemsTotal([product]) == Money.LineAmount(product.price, product.quantity) + ItemsTotal([]);
  }

  /** `addToCart` raises the business's total by the added quantity at the line's captured price. */
  lemma AddToCartTotal(carts: Carts, businessId: string, businessName: string, businessPhone: string,
                       product: CartItem)
    ensures GetCartTotal(AddToCart(carts, businessId, businessName, businessPhone, product), businessId)
            == GetCartTotal(carts, businessId) + Money.LineAmount(PriceOnAdd(carts, businessId, product), product.quantity)
  {
    var r := AddToCart(carts, businessId, businessName, businessPhone, product);
    match Get(carts, businessId)
    case Some(cart) => {
      assert Get(r, businessId) == Some(cart.(items := MergeItem(cart.items, product)));
      MergeItemTotal(cart.items, product);
    }
    case None => {
      SetGet(carts, businessId, BusinessCart(businessId, businessName, businessPhone, [product]), businessId);
      assert Get(r, businessId).value.items == [product];
      assert ItemsTotal([product]) == Money.LineAmount(product.price, product.quantity) + ItemsTotal([]);
    }
  }

  /** `removeFromCart` lowers the total by exactly the amount of the removed lines. */
  lemma RemoveFromCartTotal(carts: Carts, businessId: string, productId: string)
    ensures Get(carts, businessId).Some? ==>
      GetCartTotal(RemoveFromCart(carts, businessId, productId), businessId)
      == GetCartTotal(carts, businessId) - ItemsTotal(OnlyProduct(Get(carts, businessId).value.items, productId))
  {
    if Get(carts, businessId).Some? {
      ItemsTotalSplit(Get(carts, businessId).value.items, productId);
    }
  }

  /** `updateQuantity` changes the total by the line's price times the change of quantity. */
  lemma UpdateQuantityTotal(carts: Carts, businessId: string, productId: string, quantity: int)
    requires Get(carts, businessId).Some?
    requires FindItem(Get(carts, businessId).value.items, productId).Some?
    ensures
      var line := Get(carts, businessId).value.items[FindItem(Get(carts, businessId).value.items, productId).value];
      GetCartTotal(UpdateQuantity(carts, businessId, productId, quantity), businessId)
      == GetCartTotal(carts, businessId) - Money.LineAmount(line.price, line.quantity)
         + Money.LineAmount(line.price, AtLeastOne(quantity))
  {
    var cart := Get(carts, businessId).value;
    var i := FindItem(cart.items, productId).value;
    ItemsTotalUpdate(cart.items, i, cart.items[i].(quantity := AtLeastOne(quantity)));
    var updated := cart.(items := cart.items[i := cart.items[i].(quantity := AtLeastOne(quantity))]);
    SetGet(carts, businessId, updated, businessId);
  }

  /**
   * Adding the same product twice leaves exactly one line for it, holding
   * the sum of both quantities at the first-added price.
   */
  lemma AddTwiceMerges(carts: Carts, businessId: string, businessName: string, businessPhone: string,
                       first: CartItem, second: CartItem)
    requires first.productId == second.productId
    requires Get(carts, businessId).None? || FindItem(Get(carts, businessId).value.items, first.productId).None?
    ensures
      var r := AddToCart(AddToCart(carts, businessId, businessName, businessPhone, first),
                         businessId, businessName, businessPhone, second);
      && Get(r, businessId).Some?
      && OnlyProduct(Get(r, businessId).value.items, first.productId)
         == [first.(quantity := first.quantity + second.quantity)]
  {
    var once := AddToCart(carts, businessId, businessName, businessPhone, first);
    var twice := AddToCart(once, businessId, businessName, businessPhone, second);
    var before := if Get(carts, businessId).Some? then Get(carts, businessId).value.items else [];
    assert Get(once, businessId).value.items == MergeItem(before, first);
    assert Get(twice, businessId).value.items == MergeItem(MergeItem(before, first), second);
    MergeTwice(before, first, second);
  }

  /** Within one cart: a product merged twice into lines that lack it ends as one summed line. */
  lemma MergeTwice(before: seq<CartItem>, first: CartItem, second: CartItem)
    requires first.productId == second.productId
    requires FindItem(before, first.productId).None?
    ensures OnlyProduct(MergeItem(MergeItem(before, first), second), first.productId)
            == [first.(quantity := first.quantity + second.quantity)]
  {
    var items1 := MergeItem(before, first);
    assert items1 == before + [first];
    assert FindItem(items1, first.productId) == Some(|before|) by {
      FindAfter(before, first);
    }
    var merged := first.(quantity := first.quantity + second.quantity);
    assert MergeItem(items1, second) == before + [merged];
    OnlyProductAppend(before, [merged], first.productId);
    OnlyProductAbsent(before, first.productId);
  }

  /** Appending a line whose product is not yet present makes it the first match. */
  lemma FindAfter(before: seq<CartItem>, x: CartItem)
    requires FindItem(before, x.productId).None?
    ensures FindItem(before + [x], x.productId) == Some(|before|)
  {
    var items := before + [x];
    assert items[|before|].productId == x.productId;
    assert forall j :: 0 <= j < |before| ==> items[j] == before[j];
  }

  lemma {:induction false} OnlyProductAppend(a: seq<CartItem>, b: seq<CartItem>, productId: string)
    ensures OnlyProduct(a + b, productId) == OnlyProduct(a, productId) + OnlyProduct(b, productId)
    decreases |a|
  {
    if a == [] {
      assert a + b == b;
    } else {
      assert (a + b)[0] == a[0] && (a + b)[1..] == a[1..] + b;
      OnlyProductAppend(a[1..], b, productId);
    }
  }

  lemma {:induction false} OnlyProductAbsent(items: seq<CartItem>, productId: string)
    requires forall j :: 0 <= j < |items| ==> items[j].productId != productId
    ensures OnlyProduct(items, productId) == []
    decreases |items|
  {
    if items != [] {
      OnlyProductAbsent(items[1..], productId);
    }
  }
}

=== FILE: cart_model.dfy ===
/**
 * The server-side cart document (one per buyer and business): its items,
 * its pricing fields, the defaults a new cart starts from, its expiry
 * thirty days after creation, and the item-count and formatted-total
 * virtuals. Amounts are integer cents and instants are milliseconds since
 * the epoch; the creation instant is a parameter.
 */
module CartModel {
  import opened Wrappers
  import opened Constants
  import Money
  import Tally

  datatype CartItem = CartItem(
    productId: string,
    quantity: int,
    price: int,
    name: string,
    image: Option<string>)

  datatype Cart = Cart(
    buyerId: string,
    businessId: string,
    items: seq<CartItem>,
    subtotal: int,
    tax: int,
    discount: int,
    total: int,
    isActive: bool,
    expiresAt: int)

  /** An item the item schema accepts: required fields present, at least one unit, no negative price. */
  predicate ValidItem(item: CartItem) {
    item.productId != "" && item.quantity >= 1 && item.price >= 0 && item.name != ""
  }

  predicate Valid(c: Cart) {
    && c.buyerId != "" && c.businessId != ""
    && (forall i :: 0 <= i < |c.items| ==> ValidItem(c.items[i]))
    && c.subtotal >= 0 && c.tax >= 0 && c.discount >= 0 && c.total >= 0
  }

  const MillisecondsPerDay: int := 24 * 60 * 60 * 1000

  /** The default lifetime, written in the schema as `30 * 24 * 60 * 60 * 1000`. */
  const Lifetime: int := 30 * 24 * 60 * 60 * 1000

  /** The schema's literal lifetime is CART_EXPIRY_DAYS days, 2,592,000,000 ms. */
  lemma LifetimeIsExpiryDays()
    ensures Lifetime == CartExpiryDays * MillisecondsPerDay == 2_592_000_000
  {
  }

  function Quantity(item: CartItem): int {
    item.quantity
  }

  /** The `itemCount` virtual: the number of units across all items. */
  function ItemCount(c: Cart): (n: int)
    ensures c.items == [] ==> n == 0
  {
    Tally.SumQuantities(c.items, Quantity)
  }

  /** Adding an item to the list raises the count by that item's quantity. */
  lemma ItemCountAdd(c: Cart, item: CartItem)
    ensures ItemCount(c.(items := c.items + [item])) == ItemCount(c) + item.quantity
  {
    Tally.SumQuantitiesAppend(c.items, [item], Quantity);
  }

  /** The `formattedTotal` virtual, `total.toFixed(2)`: it reads back as the total. */
  function FormattedTotal(c: Cart): (s: string)
    ensures Money.ParseCents(s) == Some(c.total)
    ensures c.total >= 0 ==> s[0] != '-'
  {
    Money.FormatCentsRoundTrip(c.total);
    Money.FormatCents(c.total)
  }

  /** A cart as submitted: every field with a default may be missing. */
  datatype CartInput = CartInput(
    buyerId: string,
    businessId: string,
    items: Option<seq<CartItem>>,
    subtotal: Option<int>,
    tax: Option<int>,
    discount: Option<int>,
    total: Option<int>,
    isActive: Option<bool>,
    expiresAt: Option<int>)

  /**
   * Saving a submitted cart at instant `now`: missing fields take their
   * defaults (no items, zero amounts, active, expiring after the default
   * lifetime) and the result must satisfy the schema.
   */
  function Create(input: CartInput, now: int): (r: Option<Cart>)
    ensures r.Some? ==> Valid(r.value)
    ensures r.Some? ==> r.value.expiresAt == input.expiresAt.GetOr(now + CartExpiryDays * MillisecondsPerDay)
    ensures r.Some? ==> r.value.isActive == input.isActive.GetOr(true)
    ensures input.buyerId == "" || input.businessId == "" ==> r.None?
    ensures input.items.Some? && (exists i :: 0 <= i < |input.items.value| && !ValidItem(input.items.value[i])) ==> r.None?
  {
    var c := Cart(
      input.buyerId, input.businessId, input.items.GetOr([]),
      input.subtotal.GetOr(0), input.tax.GetOr(0), input.discount.GetOr(0), input.total.GetOr(0),
      input.isActive.GetOr(true), input.expiresAt.GetOr(now + Lifetime));
    if Valid(c) then Some(c) else None
  }

  /** The submission that stores exactly the given cart. */
  function Submission(c: Cart): CartInput {
    CartInput(
      c.buyerId, c.businessId, Some(c.items), Some(c.subtotal), Some(c.tax), Some(c.discount),
      Some(c.total), Some(c.isActive), Some(c.expiresAt))
  }

  /** Every cart the schema accepts survives a save unchanged, whenever it is saved. */
  lemma CreateAcceptsValid(c: Cart, now: int)
    requires Valid(c)
    ensures Create(Submission(c), now) == Some(c)
  {
  }

  /** A cart created from the two ids alone is empty, active, zero-priced and expires 30 days on. */
  lemma CreateDefaults(buyerId: string, businessId: string, now: int)
    requires buyerId != "" && businessId != ""
    ensures var r := Create(CartInput(buyerId, businessId, None, None, None, None, None, None, None), now);
      && r.Some?
      && ItemCount(r.value) == 0
      && r.value.subtotal == r.value.tax == r.value.discount == r.value.total == 0
      && FormattedTotal(r.value) == "0.00"
      && r.value.isActive
      && r.value.expiresAt - now == 2_592_000_000
  {
    var r := Create(CartInput(buyerId, businessId, None, None, None, None, None, None, None), now);
    assert r.Some?;
    ZeroFormatsAsZero();
  }

  lemma ZeroFormatsAsZero()
    ensures Money.FormatCents(0) == "0.00"
  {
  }
}

=== FILE: cart_persistence.dfy ===
/**
 * Saving and loading the cart store. The durable slot holds the Map as a
 * list of [businessId, cart] pairs (a Map is not serialisable directly);
 * loading rebuilds a Map from those pairs. The text encoding is abstracted
 * to whether the slot is empty, unreadable, or holds a pair list.
 */
module CartPersistence {
  import opened OrderedMap
  import opened CartContext

  /** The fixed storage key. */
  const StorageKey: string := "marketplace-carts"

  /** What reading the storage key can yield. */
  datatype Slot =
    | Missing                                        // no entry, or an empty string
    | Unreadable                                     // JSON.parse or new Map(...) threw
    | Stored(pairs: seq<(string, BusinessCart)>)

  /** The save effect: the store as its entry list, in Map order. */
  function Save(carts: Carts): (slot: Slot)
    ensures slot.Stored? && |slot.pairs| == |carts|
    ensures forall i :: 0 <= i < |carts| ==> slot.pairs[i] == carts[i]
  {
    Stored(ToPairs(carts))
  }

  /**
   * The load effect: a readable pair list replaces the store; an empty or
   * unreadable slot leaves the current store as it is.
   */
  function Load(slot: Slot, current: Carts): (r: Carts)
    ensures !slot.Stored? ==> r == current
    ensures slot.Stored? ==> DistinctKeys(r)
  {
    match slot
    case Stored(pairs) => FromPairs(pairs)
    case _ => current
  }

  /** Loading what was saved rebuilds the same store, entry order included. */
  lemma LoadSave(carts: Carts, current: Carts)
    requires DistinctKeys(carts)
    ensures Load(Save(carts), current) == carts
  {
    FromPairsToPairs(carts);
  }

  /** In particular a well-formed store survives a save and a reload intact. */
  lemma LoadSaveWellFormed(carts: Carts, current: Carts)
    requires WellFormed(carts)
    ensures WellFormed(Load(Save(carts), current))
  {
    LoadSave(carts, current);
  }
}

=== FILE: constants.dfy ===
/**
 * The enumerations the backend models store as strings, each as a datatype
 * with its stored string value and the parse back from a string, plus the
 * cart lifetime in days.
 */
module Constants {
  import opened Wrappers

  /** `BUSINESS_CATEGORIES`: the category a product may be filed under. */
  const BusinessCategories: seq<string> := [
    "Electronics", "Fashion", "Home & Living", "Beauty & Personal Care",
    "Sports & Outdoors", "Books & Media", "Food & Beverages", "Health & Wellness",
    "Automotive", "Pets & Animals", "Toys & Games", "Office Supplies",
    "Garden & Outdoor", "Tools & Hardware", "Other"
  ]

  /** `VALIDATION_RULES.CART_EXPIRY_DAYS`. */
  const CartExpiryDays: nat := 30

  /** `PRODUCT_STATUS`. */
  datatype ProductStatus = Active | Inactive | OutOfStock

  function ProductStatusValue(s: ProductStatus): string {
    match s
    case Active => "active"
    case Inactive => "inactive"
    case OutOfStock => "out_of_stock"
  }

  /** Mongoose's enum validator: only the listed strings are accepted. */
  function ParseProductStatus(v: string): (r: Option<ProductStatus>)
    ensures r.Some? ==> ProductStatusValue(r.value) == v
    ensures r.None? ==> forall s: ProductStatus :: ProductStatusValue(s) != v
  {
    if v == "active" then Some(Active)
    else if v == "inactive" then Some(Inactive)
    else if v == "out_of_stock" then Some(OutOfStock)
    else None
  }

  /** Every status is stored as a string the validator accepts back as itself. */
  lemma ProductStatusRoundTrip(s: ProductStatus)
    ensures ParseProductStatus(ProductStatusValue(s)) == Some(s)
  {
  }

  /** `ORDER_STATUS`. */
  datatype OrderStatus = Pending | Confirmed | Processing | Shipped | Delivered | Cancelled | Returned

  function OrderStatusValue(s: OrderStatus): string {
    match s
    case Pending => "pending"
    case Confirmed => "confirmed"
    case Processing => "processing"
    case Shipped => "shipped"
    case Delivered => "delivered"
    case Cancelled => "cancelled"
    case Returned => "returned"
  }

  function ParseOrderStatus(v: string): (r: Option<OrderStatus>)
    ensures r.Some? ==> OrderStatusValue(r.value) == v
    ensures r.None? ==> forall s: OrderStatus :: OrderStatusValue(s) != v
  {
    if v == "pending" then Some(Pending)
    else if v == "confirmed" then Some(Confirmed)
    else if v == "processing" then Some(Processing)
    else if v == "shipped" then Some(Shipped)
    else if v == "delivered" then Some(Delivered)
    else if v == "cancelled" then Some(Cancelled)
    else if v == "returned" then Some(Returned)
    else None
  }

  lemma OrderStatusRoundTrip(s: OrderStatus)
    ensures ParseOrderStatus(OrderStatusValue(s)) == Some(s)
  {
  }

  /** `PAYMENT_STATUS`. */
  datatype PaymentStatus = PaymentPending | Completed | Failed | Refunded

  function PaymentStatusValue(s: PaymentStatus): string {
    match s
    case PaymentPending => "pending"
    case Completed => "completed"
    case Failed => "failed"
    case Refunded => "refunded"
  }

  function ParsePaymentStatus(v: string): (r: Option<PaymentStatus>)
    ensures r.Some? ==> PaymentStatusValue(r.value) == v
    ensures r.None? ==> forall s: PaymentStatus :: PaymentStatusValue(s) != v
  {
    if v == "pending" then Some(PaymentPending)
    else if v == "completed" then Some(Completed)
    else if v == "failed" then Some(Failed)
    else if v == "refunded" then Some(Refunded)
    else None
  }

  lemma PaymentStatusRoundTrip(s: PaymentStatus)
    ensures ParsePaymentStatus(PaymentStatusValue(s)) == Some(s)
  {
  }

  /** `PAYMENT_METHODS`. */
  datatype PaymentMethod = WhatsAppPayment | BankTransfer | CashOnDelivery | Upi | Card

  function PaymentMethodValue(m: PaymentMethod): string {
    match m
    case WhatsAppPayment => "whatsapp"
    case BankTransfer => "bank_transfer"
    case CashOnDelivery => "cod"
    case Upi => "upi"
    case Card => "card"
  }

  function ParsePaymentMethod(v: string): (r: Option<PaymentMethod>)
    ensures r.Some? ==> PaymentMethodValue(r.value) == v
    ensures r.None? ==> forall m: PaymentMethod :: PaymentMethodValue(m) != v
  {
    if v == "whatsapp" then Some(WhatsAppPayment)
    else if v == "bank_transfer" then Some(BankTransfer)
    else if v == "cod" then Some(CashOnDelivery)
    else if v == "upi" then Some(Upi)
    else if v == "card" then Some(Card)
    else None
  }

  lemma PaymentMethodRoundTrip(m: PaymentMethod)
    ensures ParsePaymentMethod(PaymentMethodValue(m)) == Some(m)
  {
  }
}

=== FILE: errors.dfy ===
/**
 * The backend's error taxonomy: a base application error and thirteen
 * kinds derived from it, each fixing an HTTP status, a machine-readable
 * code and a message, possibly from a default or a template.
 * A `None` argument stands for one the caller left `undefined`.
 */
module Errors {
  import opened Wrappers

  datatype AppError =
    | Base(message: string, statusCode: Option<int>, code: Option<string>)
    | Validation(message: string)
    | Authentication(optMessage: Option<string>)
    | Authorization(optMessage: Option<string>)
    | NotFound(resource: Option<string>)
    | Duplicate(field: string, value: string)
    | BadRequest(message: string)
    | ServiceUnavailable(optService: Option<string>)
    | RateLimit(optMessage: Option<string>)
    | Database(optMessage: Option<string>)
    | Payment(optMessage: Option<string>)
    | FileUpload(optMessage: Option<string>)
    | Email(optMessage: Option<string>)
    | Integration(service: string, optMessage: Option<string>)

  /** The statuses the derived kinds use, plus the base default. */
  const KnownStatuses: set<int> := {400, 401, 403, 404, 409, 429, 500, 503}

  /** The status each code stands for, independently of which kind carries it. */
  function StatusForCode(code: string): Option<int> {
    if code == "INTERNAL_ERROR" then Some(500)
    else if code == "VALIDATION_ERROR" then Some(400)
    else if code == "UNAUTHORIZED" then Some(401)
    else if code == "FORBIDDEN" then Some(403)
    else if code == "NOT_FOUND" then Some(404)
    else if code == "DUPLICATE_ERROR" then Some(409)
    else if code == "BAD_REQUEST" then Some(400)
    else if code == "SERVICE_UNAVAILABLE" then Some(503)
    else if code == "RATE_LIMITED" then Some(429)
    else if code == "DATABASE_ERROR" then Some(500)
    else if code == "PAYMENT_ERROR" then Some(400)
    else if code == "FILE_UPLOAD_ERROR" then Some(400)
    else if code == "EMAIL_ERROR" then Some(500)
    else if code == "INTEGRATION_ERROR" then Some(500)
    else None
  }

  function StatusCode(e: AppError): (status: int)
    ensures e.Base? ==> status == e.statusCode.GetOr(500)
    ensures !e.Base? ==> status in KnownStatuses
  {
    match e
    case Base(_, statusCode, _) => statusCode.GetOr(500)
    case Validation(_) => 400
    case Authentication(_) => 401
    case Authorization(_) => 403
    case NotFound(_) => 404
    case Duplicate(_, _) => 409
    case BadRequest(_) => 400
    case ServiceUnavailable(_) => 503
    case RateLimit(_) => 429
    case Database(_) => 500
    case Payment(_) => 400
    case FileUpload(_) => 400
    case Email(_) => 500
    case Integration(_, _) => 500
  }

  function Code(e: AppError): (code: string)
    ensures e.Base? ==> code == e.code.GetOr("INTERNAL_ERROR")
  {
    match e
    case Base(_, _, code) => code.GetOr("INTERNAL_ERROR")
    case Validation(_) => "VALIDATION_ERROR"
    case Authentication(_) => "UNAUTHORIZED"
    case Authorization(_) => "FORBIDDEN"
    case NotFound(_) => "NOT_FOUND"
    case Duplicate(_, _) => "DUPLICATE_ERROR"
    case BadRequest(_) => "BAD_REQUEST"
    case ServiceUnavailable(_) => "SERVICE_UNAVAILABLE"
    case RateLimit(_) => "RATE_LIMITED"
    case Database(_) => "DATABASE_ERROR"
    case Payment(_) => "PAYMENT_ERROR"
    case FileUpload(_) => "FILE_UPLOAD_ERROR"
    case Email(_) => "EMAIL_ERROR"
    case Integration(_, _) => "INTEGRATION_ERROR"
  }

  /** The message passed to the base constructor; a template never yields an empty one. */
  function Message(e: AppError): (m: string)
    ensures e.NotFound? || e.Duplicate? || e.ServiceUnavailable? || e.Integration? ==> m != []
  {
    match e
    case Base(message, _, _) => message
    case Validation(message) => message
    case Authentication(m) => m.GetOr("Authentication failed")
    case Authorization(m) => m.GetOr("Access denied")
    case NotFound(resource) => resource.GetOr("Resource") + " not found"
    case Duplicate(field, value) => field + " '" + value + "' already exists"
    case BadRequest(message) => message
    case ServiceUnavailable(service) => service.GetOr("Service") + " is temporarily unavailable"
    case RateLimit(m) => m.GetOr("Too many requests")
    case Database(m) => m.GetOr("Database operation failed")
    case Payment(m) => m.GetOr("Payment processing failed")
    case FileUpload(m) => m.GetOr("File upload failed")
    case Email(m) => m.GetOr("Failed to send email")
    case Integration(service, m) =>
      var given := m.GetOr("");
      if given != [] then given else "Integration with " + service + " failed"
  }

  /**
   * Every derived kind's status agrees with the status its code stands for,
   * and so does a base error left at its defaults.
   */
  lemma StatusFollowsCode(e: AppError)
    requires !e.Base? || (e.statusCode.None? && e.code.None?)
    ensures StatusForCode(Code(e)) == Some(StatusCode(e))
  {
  }

  /** The (status, code) pair each derived kind passes to the base constructor. */
  lemma DerivedKindPairs(e: AppError)
    ensures e.Validation? ==> StatusCode(e) == 400 && Code(e) == "VALIDATION_ERROR"
    ensures e.Authentication? ==> StatusCode(e) == 401 && Code(e) == "UNAUTHORIZED"
    ensures e.Authorization? ==> StatusCode(e) == 403 && Code(e) == "FORBIDDEN"
    ensures e.NotFound? ==> StatusCode(e) == 404 && Code(e) == "NOT_FOUND"
    ensures e.Duplicate? ==> StatusCode(e) == 409 && Code(e) == "DUPLICATE_ERROR"
    ensures e.BadRequest? ==> StatusCode(e) == 400 && Code(e) == "BAD_REQUEST"
    ensures e.ServiceUnavailable? ==> StatusCode(e) == 503 && Code(e) == "SERVICE_UNAVAILABLE"
    ensures e.RateLimit? ==> StatusCode(e) == 429 && Code(e) == "RATE_LIMITED"
    ensures e.Database? ==> StatusCode(e) == 500 && Code(e) == "DATABASE_ERROR"
    ensures e.Payment? ==> StatusCode(e) == 400 && Code(e) == "PAYMENT_ERROR"
    ensures e.FileUpload? ==> StatusCode(e) == 400 && Code(e) == "FILE_UPLOAD_ERROR"
    ensures e.Email? ==> StatusCode(e) == 500 && Code(e) == "EMAIL_ERROR"
    ensures e.Integration? ==> StatusCode(e) == 500 && Code(e) == "INTEGRATION_ERROR"
  {
  }

  /** The derived kinds are told apart by their codes. */
  lemma CodesIdentifyKinds(e1: AppError, e2: AppError)
    requires !e1.Base? && !e2.Base?
    requires Code(e1) == Code(e2)
    ensures e1.Validation? == e2.Validation? && e1.Authentication? == e2.Authentication?
    ensures e1.Authorization? == e2.Authorization? && e1.NotFound? == e2.NotFound?
    ensures e1.Duplicate? == e2.Duplicate? && e1.BadRequest? == e2.BadRequest?
    ensures e1.ServiceUnavailable? == e2.ServiceUnavailable? && e1.RateLimit? == e2.RateLimit?
    ensures e1.Database? == e2.Database? && e1.Payment? == e2.Payment?
    ensures e1.FileUpload? == e2.FileUpload? && e1.Email? == e2.Email? && e1.Integration? == e2.Integration?
  {
  }

  /** The default messages of the access-control kinds and the rate limit. */
  lemma DefaultAccessMessages()
    ensures Message(Authentication(None)) == "Authentication failed"
    ensures Message(Authorization(None)) == "Access denied"
    ensures Message(RateLimit(None)) == "Too many requests"
  {
  }

  /** The default messages of the back-office failures. */
  lemma DefaultFailureMessages()
    ensures Message(Database(None)) == "Database operation failed"
    ensures Message(Payment(None)) == "Payment processing failed"
  {
  }

  lemma DefaultTransferMessages()
    ensures Message(FileUpload(None)) == "File upload failed"
    ensures Message(Email(None)) == "Failed to send email"
  {
  }

  /** The templates with their default subject. */
  lemma DefaultSubjects()
    ensures Message(NotFound(None)) == "Resource not found"
    ensures Message(ServiceUnavailable(None)) == "Service is temporarily unavailable"
  {
    assert Message(NotFound(None)) == "Resource" + " not found";
    assert Message(ServiceUnavailable(None)) == "Service" + " is temporarily unavailable";
  }

  /** A message that is given is used as is, for every kind that takes one. */
  lemma GivenMessageWins(m: string)
    ensures Message(Base(m, None, None)) == m && Message(Validation(m)) == m && Message(BadRequest(m)) == m
    ensures Message(Authentication(Some(m))) == m && Message(Authorization(Some(m))) == m
    ensures Message(RateLimit(Some(m))) == m && Message(Database(Some(m))) == m
    ensures Message(Payment(Some(m))) == m && Message(FileUpload(Some(m))) == m && Message(Email(Some(m))) == m
  {
  }

  /** The not-found message is the resource followed by " not found". */
  lemma NotFoundMessage(resource: string)
    ensures var m := Message(NotFound(Some(resource)));
            && |m| == |resource| + 10
            && m[..|resource|] == resource
            && m[|resource|..] == " not found"
  {
  }

  /** The duplicate message quotes the value after the field name. */
  lemma DuplicateMessage(field: string, value: string)
    ensures var m := Message(Duplicate(field, value));
            && m[..|field|] == field
            && m[|field|..|field| + 2] == " '"
            && m[|field| + 2..|field| + 2 + |value|] == value
            && m[|field| + 2 + |value|..] == "' already exists"
  {
  }

  /** An integration error falls back to the template only for an empty or missing message. */
  lemma IntegrationMessage(service: string, m: Option<string>)
    ensures m.Some? && m.value != [] ==> Message(Integration(service, m)) == m.value
    ensures (m.None? || m.value == []) ==>
      Message(Integration(service, m)) == "Integration with " + service + " failed"
    ensures Message(Integration(service, Some(""))) == Message(Integration(service, None))
  {
  }
}

=== FILE: money.dfy ===
/**
 * Money is kept in integer cents, so that JavaScript's `toFixed(2)` on an
 * amount is an exact rendering rather than a rounding of a binary float.
 */
module Money {
  import opened Wrappers
  import opened Strings

  /** `(cents / 100).toFixed(2)`: optional '-', whole units, '.', exactly two digits. */
  function FormatCents(cents: int): (s: string)
    ensures 4 <= |s|
    ensures s[|s| - 3] == '.' && IsDigit(s[|s| - 2]) && IsDigit(s[|s| - 1])
    ensures cents < 0 <==> s[0] == '-'
    ensures forall i :: 0 <= i < |s| ==> IsDigit(s[i]) || s[i] == '.' || s[i] == '-'
  {
    var a := if cents < 0 then -cents else cents;
    (if cents < 0 then "-" else "") + NatToString(a / 100) + "." + [DigitChar(a % 100 / 10), DigitChar(a % 10)]
  }

  /** Reads back an amount written with exactly two decimals. */
  function ParseCents(s: string): Option<int> {
    if |s| < 4 || s[|s| - 3] != '.' || !IsDigit(s[|s| - 2]) || !IsDigit(s[|s| - 1]) then None
    else
      var negative := s[0] == '-';
      var whole := if negative then s[1..|s| - 3] else s[..|s| - 3];
      var fraction := 10 * DigitValue(s[|s| - 2]) + DigitValue(s[|s| - 1]);
      match ParseNat(whole)
      case None => None
      case Some(units) =>
        var magnitude := 100 * units + fraction;
        if negative && magnitude == 0 then None
        else Some(if negative then -magnitude else magnitude)
  }

  /** The two-decimal rendering loses nothing: every amount reads back exactly. */
  lemma FormatCentsRoundTrip(cents: int)
    ensures ParseCents(FormatCents(cents)) == Some(cents)
  {
    var a := if cents < 0 then -cents else cents;
    var s := FormatCents(cents);
    var w := NatToString(a / 100);
    ParseNatToString(a / 100);
    if cents < 0 {
      assert s == "-" + w + "." + [DigitChar(a % 100 / 10), DigitChar(a % 10)];
      assert s[1..|s| - 3] == w;
    } else {
      assert s == w + "." + [DigitChar(a % 100 / 10), DigitChar(a % 10)];
      assert s[..|s| - 3] == w;
      assert w[0] != '-';
    }
  }

  /** `price * quantity`: the amount of one cart line. */
  function LineAmount(price: int, quantity: int): int {
    price * quantity
  }
}

=== FILE: order_model.dfy ===
/**
 * The order document: its line items, pricing fields, shipping address,
 * payment method and the two status fields, what the schema accepts on save
 * (bounds, enums, defaults), and the item-count virtual. Amounts are
 * integer cents.
 */
module OrderModel {
  import opened Wrappers
  import opened Constants
  import Tally

  datatype OrderItem = OrderItem(
    productId: string,
    productName: string,
    quantity: int,
    pricePerUnit: int,
    totalPrice: int,
    image: Option<string>)

  datatype Address = Address(
    street: string,
    city: string,
    state: string,
    zipCode: string,
    country: string,
    phone: string)

  datatype Order = Order(
    orderNumber: string,
    buyerId: string,
    businessId: string,
    items: seq<OrderItem>,
    subtotal: int,
    tax: int,
    discount: int,
    shippingCost: int,
    total: int,
    shippingAddress: Address,
    paymentMethod: PaymentMethod,
    paymentStatus: PaymentStatus,
    status: OrderStatus)

  predicate ValidItem(item: OrderItem) {
    && item.productId != "" && item.productName != ""
    && item.quantity >= 1 && item.pricePerUnit >= 0 && item.totalPrice >= 0
  }

  /** Every address field is required. */
  predicate ValidAddress(a: Address) {
    a.street != "" && a.city != "" && a.state != "" && a.zipCode != "" && a.country != "" && a.phone != ""
  }

  predicate Valid(o: Order) {
    && o.orderNumber != "" && o.buyerId != "" && o.businessId != ""
    && (forall i :: 0 <= i < |o.items| ==> ValidItem(o.items[i]))
    && o.subtotal >= 0 && o.tax >= 0 && o.discount >= 0 && o.shippingCost >= 0 && o.total >= 0
    && ValidAddress(o.shippingAddress)
  }

  function Quantity(item: OrderItem): int {
    item.quantity
  }

  /** The `itemCount` virtual: the number of units across all lines. */
  function ItemCount(o: Order): (n: int)
    ensures o.items == [] ==> n == 0
  {
    Tally.SumQuantities(o.items, Quantity)
  }

  /** Adding a line raises the count by that line's quantity. */
  lemma ItemCountAdd(o: Order, item: OrderItem)
    ensures ItemCount(o.(items := o.items + [item])) == ItemCount(o) + item.quantity
  {
    Tally.SumQuantitiesAppend(o.items, [item], Quantity);
  }

  /** An order as submitted: the enums are strings, the defaulted fields may be missing. */
  datatype OrderInput = OrderInput(
    orderNumber: string,
    buyerId: string,
    businessId: string,
    items: seq<OrderItem>,
    subtotal: int,
    tax: Option<int>,
    discount: Option<int>,
    shippingCost: Option<int>,
    total: int,
    shippingAddress: Address,
    paymentMethod: string,
    paymentStatus: Option<string>,
    status: Option<string>)

  /**
   * Saving a submitted order: the payment method must be one of
   * PAYMENT_METHODS, the payment status one of PAYMENT_STATUS (default
   * 'pending'), the status one of ORDER_STATUS (default 'pending'); missing
   * amounts default to 0; the result must satisfy the schema.
   */
  function Create(input: OrderInput): (r: Option<Order>)
    ensures r.Some? ==> Valid(r.value)
    ensures r.Some? ==> PaymentMethodValue(r.value.paymentMethod) == input.paymentMethod
    ensures r.Some? ==> PaymentStatusValue(r.value.paymentStatus) == input.paymentStatus.GetOr("pending")
    ensures r.Some? ==> OrderStatusValue(r.value.status) == input.status.GetOr("pending")
    ensures ParsePaymentMethod(input.paymentMethod).None? ==> r.None?
    ensures input.status.Some? && ParseOrderStatus(input.status.value).None? ==> r.None?
    ensures input.paymentStatus.Some? && ParsePaymentStatus(input.paymentStatus.value).None? ==> r.None?
    ensures input.subtotal < 0 || input.total < 0 || !ValidAddress(input.shippingAddress) ==> r.None?
  {
    var chosen := ParsePaymentMethod(input.paymentMethod);
    var payment := if input.paymentStatus.None? then Some(PaymentPending) else ParsePaymentStatus(input.paymentStatus.value);
    var status := if input.status.None? then Some(Pending) else ParseOrderStatus(input.status.value);
    if chosen.None? || payment.None? || status.None? then None
    else
      var o := Order(
        input.orderNumber, input.buyerId, input.businessId, input.items,
        input.subtotal, input.tax.GetOr(0), input.discount.GetOr(0), input.shippingCost.GetOr(0),
        input.total, input.shippingAddress, chosen.value, payment.value, status.value);
      if Valid(o) then Some(o) else None
  }

  /** The submission that stores exactly the given order. */
  function Submission(o: Order): OrderInput {
    OrderInput(
      o.orderNumber, o.buyerId, o.businessId, o.items, o.subtotal,
      Some(o.tax), Some(o.discount), Some(o.shippingCost), o.total, o.shippingAddress,
      PaymentMethodValue(o.paymentMethod),
      Some(PaymentStatusValue(o.paymentStatus)), Some(OrderStatusValue(o.status)))
  }

  /**
   * A valid pending, unpaid order without extra charges is stored unchanged
   * even when its statuses and charges are left out of the submission.
   */
  lemma CreateOmittingDefaults(o: Order)
    requires Valid(o)
    requires o.tax == 0 && o.discount == 0 && o.shippingCost == 0
    requires o.paymentStatus == PaymentPending && o.status == Pending
    ensures Create(Submission(o).(tax := None, discount := None, shippingCost := None,
                                  paymentStatus := None, status := None)) == Some(o)
  {
    PaymentMethodRoundTrip(o.paymentMethod);
  }

  /** Every order the schema accepts survives a save unchanged. */
  lemma CreateAcceptsValid(o: Order)
    requires Valid(o)
    ensures Create(Submission(o)) == Some(o)
  {
    PaymentMethodRoundTrip(o.paymentMethod);
    PaymentStatusRoundTrip(o.paymentStatus);
    OrderStatusRoundTrip(o.status);
  }

  /**
   * An order whose required fields are acceptable is accepted without
   * statuses or extra charges, and is then pending, unpaid and charges nothing extra.
   */
  lemma CreateDefaults(input: OrderInput)
    requires input.orderNumber != "" && input.buyerId != "" && input.businessId != ""
    requires forall i :: 0 <= i < |input.items| ==> ValidItem(input.items[i])
    requires input.subtotal >= 0 && input.total >= 0 && ValidAddress(input.shippingAddress)
    requires ParsePaymentMethod(input.paymentMethod).Some?
    requires input.tax.None? && input.discount.None? && input.shippingCost.None?
    requires input.paymentStatus.None? && input.status.None?
    ensures Create(input).Some?
    ensures var o := Create(input).value;
      o.status == Pending && o.paymentStatus == PaymentPending
      && o.tax == 0 && o.discount == 0 && o.shippingCost == 0
  {
  }
}

=== FILE: ordered_map.dfy ===
/**
 * A JavaScript `Map` as a value: a list of (key, value) entries in
 * insertion order. `set` on a present key replaces its value in place,
 * `set` on a new key appends, `delete` removes the entry, and
 * `new Map(pairs)` is a left-to-right series of `set`s.
 */
module OrderedMap {
  import opened Wrappers

  type Entries<K, V> = seq<(K, V)>

  /** No key appears twice (always true of a JavaScript Map). */
  predicate DistinctKeys<K(==), V>(m: Entries<K, V>) {
    forall i, j :: 0 <= i < j < |m| ==> m[i].0 != m[j].0
  }

  function Keys<K, V>(m: Entries<K, V>): set<K> {
    set i | 0 <= i < |m| :: m[i].0
  }

  /** `m.get(k)`. */
  function Get<K(==), V>(m: Entries<K, V>, k: K): (r: Option<V>)
    ensures r.Some? <==> k in Keys(m)
    ensures r.Some? ==> (k, r.value) in m
    decreases |m|
  {
    if m == [] then None
    else if m[0].0 == k then Some(m[0].1)
    else
      var r := Get(m[1..], k);
      assert Keys(m) == {m[0].0} + Keys(m[1..]);
      r
  }

  /** `m.set(k, v)`. */
  function Set<K(==), V>(m: Entries<K, V>, k: K, v: V): (r: Entries<K, V>)
    ensures Keys(r) == Keys(m) + {k}
    ensures k !in Keys(m) ==> r == m + [(k, v)]
    ensures k in Keys(m) ==> |r| == |m|
    ensures forall e :: e in r ==> e in m || e == (k, v)
    decreases |m|
  {
    if m == [] then
      KeysCons((k, v), m);
      assert [(k, v)] + m == [(k, v)];
      [(k, v)]
    else if m[0].0 == k then
      assert Keys(m) == {k} + Keys(m[1..]);
      KeysCons((k, v), m[1..]);
      [(k, v)] + m[1..]
    else
      var tail := Set(m[1..], k, v);
      assert Keys(m) == {m[0].0} + Keys(m[1..]);
      KeysCons(m[0], tail);
      assert k !in Keys(m) ==> [m[0]] + tail == m + [(k, v)];
      [m[0]] + tail
  }

  /** After `set`, the key holds the new value and every other key is as it was. */
  lemma {:induction false} SetGet<K, V>(m: Entries<K, V>, k: K, v: V, k': K)
    ensures Get(Set(m, k, v), k') == if k' == k then Some(v) else Get(m, k')
    decreases |m|
  {
    if m != [] && m[0].0 != k {
      SetGet(m[1..], k, v, k');
      assert ([m[0]] + Set(m[1..], k, v))[1..] == Set(m[1..], k, v);
    } else if m != [] {
      assert ([(k, v)] + m[1..])[1..] == m[1..];
    }
  }

  lemma SetGetAll<K(!new), V>(m: Entries<K, V>, k: K, v: V)
    ensures forall k' :: Get(Set(m, k, v), k') == if k' == k then Some(v) else Get(m, k')
  {
    forall k' {
      SetGet(m, k, v, k');
    }
  }

  lemma {:induction false} SetDistinct<K, V>(m: Entries<K, V>, k: K, v: V)
    requires DistinctKeys(m)
    ensures DistinctKeys(Set(m, k, v))
    decreases |m|
  {
    if m != [] && m[0].0 != k {
      SetDistinct(m[1..], k, v);
      var r := Set(m, k, v);
      assert m[0].0 !in Keys(m[1..]);
      assert r == [m[0]] + Set(m[1..], k, v);
      forall i, j | 0 <= i < j < |r|
        ensures r[i].0 != r[j].0
      {
        if i == 0 {
          assert r[j].0 in Keys(Set(m[1..], k, v));
        }
      }
    } else if m != [] {
      var r := Set(m, k, v);
      assert r == [(k, v)] + m[1..];
      assert k !in Keys(m[1..]);
      forall i, j | 0 <= i < j < |r|
        ensures r[i].0 != r[j].0
      {
        if i == 0 {
          assert r[j] == m[j];
        } else {
          assert r[i] == m[i] && r[j] == m[j];
        }
      }
    }
  }

  /** The keys in insertion order, as `Array.from(m.keys())`. */
  function KeyOrder<K, V>(m: Entries<K, V>): (ks: seq<K>)
    ensures |ks| == |m|
  {
    seq(|m|, i requires 0 <= i < |m| => m[i].0)
  }

  lemma KeyOrderKeys<K, V>(m: Entries<K, V>, k: K)
    ensures k in KeyOrder(m) <==> k in Keys(m)
  {
    if k in Keys(m) {
      var i :| 0 <= i < |m| && m[i].0 == k;
      assert KeyOrder(m)[i] == k;
    }
  }

  /** `set` keeps a present key in its place and appends a new one. */
  lemma {:induction false} SetKeyOrder<K, V>(m: Entries<K, V>, k: K, v: V)
    ensures KeyOrder(Set(m, k, v)) == if k in Keys(m) then KeyOrder(m) else KeyOrder(m) + [k]
    decreases |m|
  {
    var r := Set(m, k, v);
    if k !in Keys(m) {
      assert r == m + [(k, v)];
    } else if m[0].0 == k {
      assert r == [(k, v)] + m[1..];
      assert forall i :: 0 <= i < |m| ==> r[i].0 == m[i].0;
    } else {
      var tail := Set(m[1..], k, v);
      assert r == [m[0]] + tail;
      assert Keys(m) == {m[0].0} + Keys(m[1..]) by {
        KeysCons(m[0], m[1..]);
        assert [m[0]] + m[1..] == m;
      }
      SetKeyOrder(m[1..], k, v);
      assert KeyOrder(tail) == KeyOrder(m[1..]);
      forall i | 0 <= i < |m|
        ensures r[i].0 == m[i].0
      {
        if i > 0 {
          assert r[i] == tail[i - 1];
          assert KeyOrder(tail)[i - 1] == KeyOrder(m[1..])[i - 1];
        }
      }
    }
  }

  /** `m.delete(k)`. */
  function Delete<K(==, !new), V>(m: Entries<K, V>, k: K): (r: Entries<K, V>)
    ensures Get(r, k) == None
    ensures forall k' :: k' != k ==> Get(r, k') == Get(m, k')
    ensures Keys(r) == Keys(m) - {k}
    ensures DistinctKeys(m) ==> DistinctKeys(r)
    ensures k !in Keys(m) ==> r == m
    ensures forall e :: e in r ==> e in m
    decreases |m|
  {
    if m == [] then []
    else
      var tail := Delete(m[1..], k);
      assert Keys(m) == {m[0].0} + Keys(m[1..]);
      if m[0].0 == k then
        tail
      else
        KeysCons(m[0], tail);
        assert k !in Keys(m) ==> tail == m[1..];
        assert DistinctKeys(m) ==> m[0].0 !in Keys(tail);
        [m[0]] + tail
  }

  /** The keys in order with every occurrence of `k` filtered out. */
  function WithoutKey<K(==, !new)>(ks: seq<K>, k: K): (r: seq<K>)
    ensures forall x :: x in r <==> x in ks && x != k
    ensures |ks| == 1 ==> r == if ks[0] == k then [] else ks
    decreases |ks|
  {
    if ks == [] then []
    else if ks[0] == k then WithoutKey(ks[1..], k)
    else [ks[0]] + WithoutKey(ks[1..], k)
  }

  /** The filter works piecewise, so the surviving keys keep their order. */
  lemma {:induction false} WithoutKeyAppend<K(!new)>(a: seq<K>, b: seq<K>, k: K)
    ensures WithoutKey(a + b, k) == WithoutKey(a, k) + WithoutKey(b, k)
    decreases |a|
  {
    if a == [] {
      assert a + b == b;
    } else {
      assert (a + b)[0] == a[0] && (a + b)[1..] == a[1..] + b;
      WithoutKeyAppend(a[1..], b, k);
    }
  }

  /** `delete` keeps the remaining entries in their insertion order. */
  lemma {:induction false} DeleteKeyOrder<K(!new), V>(m: Entries<K, V>, k: K)
    ensures KeyOrder(Delete(m, k)) == WithoutKey(KeyOrder(m), k)
    decreases |m|
  {
    if m != [] {
      DeleteKeyOrder(m[1..], k);
      var ks := KeyOrder(m);
      assert ks == [m[0].0] + KeyOrder(m[1..]);
      WithoutKeyAppend([m[0].0], KeyOrder(m[1..]), k);
      var tail := Delete(m[1..], k);
      if m[0].0 != k {
        assert KeyOrder([m[0]] + tail) == [m[0].0] + KeyOrder(tail);
      }
    }
  }

  lemma KeysCons<K, V>(x: (K, V), m: Entries<K, V>)
    ensures Keys([x] + m) == {x.0} + Keys(m)
  {
    var r := [x] + m;
    forall k | k in Keys(r)
      ensures k in {x.0} + Keys(m)
    {
      var i :| 0 <= i < |r| && r[i].0 == k;
      if i > 0 {
        assert m[i - 1].0 == k;
      }
    }
    forall k | k in Keys(m)
      ensures k in Keys(r)
    {
      var i :| 0 <= i < |m| && m[i].0 == k;
      assert r[i + 1].0 == k;
    }
    assert r[0].0 == x.0;
  }

  /** The keys the pairs mention. */
  function PairKeys<K, V>(pairs: seq<(K, V)>): set<K> {
    set i | 0 <= i < |pairs| :: pairs[i].0
  }

  /** `new Map(pairs)`: the pairs set one after another, later values winning. */
  function FromPairs<K(==), V>(pairs: seq<(K, V)>): (m: Entries<K, V>)
    ensures DistinctKeys(m)
    ensures Keys(m) == PairKeys(pairs)
    decreases |pairs|
  {
    if pairs == [] then []
    else
      var init := FromPairs(pairs[..|pairs| - 1]);
      var last := pairs[|pairs| - 1];
      SetDistinct(init, last.0, last.1);
      PairKeysSnoc(pairs[..|pairs| - 1], last);
      assert pairs[..|pairs| - 1] + [last] == pairs;
      Set(init, last.0, last.1)
  }

  lemma PairKeysSnoc<K, V>(pairs: seq<(K, V)>, x: (K, V))
    ensures PairKeys(pairs + [x]) == PairKeys(pairs) + {x.0}
  {
    var r := pairs + [x];
    forall k | k in PairKeys(r)
      ensures k in PairKeys(pairs) + {x.0}
    {
      var i :| 0 <= i < |r| && r[i].0 == k;
      if i < |pairs| {
        assert pairs[i].0 == k;
      }
    }
    forall k | k in PairKeys(pairs)
      ensures k in PairKeys(r)
    {
      var i :| 0 <= i < |pairs| && pairs[i].0 == k;
      assert r[i].0 == k;
    }
    assert r[|pairs|].0 == x.0;
  }

  /** The value of the last pair with key k, scanning from the end. */
  function LastValue<K(==), V>(pairs: seq<(K, V)>, k: K): Option<V>
    decreases |pairs|
  {
    if pairs == [] then None
    else if pairs[|pairs| - 1].0 == k then Some(pairs[|pairs| - 1].1)
    else LastValue(pairs[..|pairs| - 1], k)
  }

  /** Each key of `new Map(pairs)` holds the value of its last pair. */
  lemma {:induction false} FromPairsGet<K, V>(pairs: seq<(K, V)>, k: K)
    ensures Get(FromPairs(pairs), k) == LastValue(pairs, k)
    decreases |pairs|
  {
    if pairs != [] {
      var last := pairs[|pairs| - 1];
      FromPairsGet(pairs[..|pairs| - 1], k);
      SetGet(FromPairs(pairs[..|pairs| - 1]), last.0, last.1, k);
    }
  }

  /** The keys in order of first mention, each once. */
  function FirstMentions<K(==)>(ks: seq<K>): seq<K>
    decreases |ks|
  {
    if ks == [] then []
    else
      var seen := FirstMentions(ks[..|ks| - 1]);
      if ks[|ks| - 1] in seen then seen else seen + [ks[|ks| - 1]]
  }

  /** Each key of `new Map(pairs)` sits where the pairs first mention it. */
  lemma {:induction false} FromPairsKeyOrder<K, V>(pairs: seq<(K, V)>)
    ensures KeyOrder(FromPairs(pairs)) == FirstMentions(KeyOrder(pairs))
    decreases |pairs|
  {
    if pairs != [] {
      var init := pairs[..|pairs| - 1];
      var last := pairs[|pairs| - 1];
      FromPairsKeyOrder(init);
      assert init + [last] == pairs;
      KeyOrderSnoc(init, last);
      SetFirstMentions(FromPairs(init), KeyOrder(init), last.0, last.1);
    }
  }

  /** A `set` on a map whose keys stand in first-mention order extends that order by one mention. */
  lemma SetFirstMentions<K, V>(m: Entries<K, V>, ks: seq<K>, k: K, v: V)
    requires KeyOrder(m) == FirstMentions(ks)
    ensures KeyOrder(Set(m, k, v)) == FirstMentions(ks + [k])
  {
    SetKeyOrder(m, k, v);
    KeyOrderKeys(m, k);
    FirstMentionsSnoc(ks, k);
  }

  lemma KeyOrderSnoc<K, V>(m: Entries<K, V>, x: (K, V))
    ensures KeyOrder(m + [x]) == KeyOrder(m) + [x.0]
  {
  }

  lemma FirstMentionsSnoc<K>(ks: seq<K>, k: K)
    ensures FirstMentions(ks + [k])
            == if k in FirstMentions(ks) then FirstMentions(ks) else FirstMentions(ks) + [k]
  {
    assert (ks + [k])[..|ks|] == ks;
  }

  /** `Array.from(m)`: the entries in insertion order. */
  function ToPairs<K, V>(m: Entries<K, V>): seq<(K, V)> {
    m
  }

  /** Rebuilding a Map from its own entry list gives the same Map, order included. */
  lemma {:induction false} FromPairsToPairs<K, V>(m: Entries<K, V>)
    requires DistinctKeys(m)
    ensures FromPairs(ToPairs(m)) == m
    decreases |m|
  {
    if m != [] {
      var init := m[..|m| - 1];
      var last := m[|m| - 1];
      assert DistinctKeys(init);
      FromPairsToPairs(init);
      forall i | 0 <= i < |init|
        ensures init[i].0 != last.0
      {
        assert init[i] == m[i];
      }
      assert init + [last] == m;
    }
  }
}

=== FILE: product_model.dfy ===
/**
 * The product document: the fields the schema keeps, what it accepts on
 * save (bounds, enums, defaults, trimming) and the three derived values it
 * exposes — the discount percentage, the price to charge and whether the
 * product is in stock. Prices are integer cents; the percentage is a ratio
 * of prices, so the unit does not change it.
 */
module ProductModel {
  import opened Wrappers
  import opened Strings
  import opened Constants

  datatype Product = Product(
    businessId: string,
    name: string,
    description: string,
    category: string,
    price: int,
    discountedPrice: Option<int>,
    discount: Option<int>,
    images: seq<string>,
    stock: int,
    unitsSold: int,
    averageRating: real,
    reviewCount: int,
    status: ProductStatus,
    isDeleted: bool)

  /** What the schema accepts: required fields present, bounds met, category listed. */
  predicate Valid(p: Product) {
    && p.businessId != ""
    && p.name != "" && IsTrimmed(p.name)
    && p.description != "" && IsTrimmed(p.description)
    && p.category in BusinessCategories
    && p.price >= 0
    && (p.discountedPrice.Some? ==> p.discountedPrice.value >= 0)
    && (p.discount.Some? ==> 0 <= p.discount.value <= 100)
    && p.stock >= 0
    && p.unitsSold >= 0
    && 0.0 <= p.averageRating <= 5.0
    && p.reviewCount >= 0
  }

  /** JavaScript truthiness of `discountedPrice`: absent and 0 are both falsy. */
  predicate HasDiscount(p: Product) {
    p.discountedPrice.Some? && p.discountedPrice.value != 0
  }

  /**
   * The `discountPercentage` virtual: `Math.round` of the percentage saved,
   * rounding halves upwards. A discounted product with price 0 would divide
   * by zero, so the price must then be positive.
   */
  function DiscountPercentage(p: Product): (pct: int)
    requires HasDiscount(p) ==> p.price > 0
    ensures !HasDiscount(p) ==> pct == 0
    ensures HasDiscount(p) ==>
      var saved := 100 * (p.price - p.discountedPrice.value);
      2 * p.price * pct - p.price <= 2 * saved < 2 * p.price * pct + p.price
  {
    if !HasDiscount(p) then 0
    else
      var pct := (200 * (p.price - p.discountedPrice.value) + p.price) / (2 * p.price);
      FloorDivision(200 * (p.price - p.discountedPrice.value) + p.price, 2 * p.price);
      pct
  }

  lemma FloorDivision(n: int, d: int)
    requires d > 0
    ensures d * (n / d) <= n < d * (n / d) + d
  {
  }

  /** As a real number, the percentage is the saving rounded to the nearest integer, halves up. */
  lemma DiscountPercentageRounds(p: Product)
    requires HasDiscount(p) && p.price > 0
    ensures var exact := 100.0 * ((p.price - p.discountedPrice.value) as real) / (p.price as real);
      (DiscountPercentage(p) as real) - 0.5 <= exact < (DiscountPercentage(p) as real) + 0.5
  {
    var pct := DiscountPercentage(p);
    var saved := 100 * (p.price - p.discountedPrice.value);
    var price := p.price as real;
    assert 2 * p.price * pct - p.price <= 2 * saved < 2 * p.price * pct + p.price;
    assert (2.0 * price) * ((pct as real) - 0.5) <= 2.0 * (saved as real);
    assert 2.0 * (saved as real) < (2.0 * price) * ((pct as real) + 0.5);
    var exact := 100.0 * ((p.price - p.discountedPrice.value) as real) / price;
    assert exact == (saved as real) / price;
    RealDivisionBounds(saved as real, price, (pct as real) - 0.5, (pct as real) + 0.5);
  }

  lemma RealDivisionBounds(x: real, d: real, lo: real, hi: real)
    requires d > 0.0
    requires d * lo <= x < d * hi
    ensures lo <= x / d < hi
  {
    assert x / d * d == x;
  }

  /** Multiplying by a positive factor keeps a strict order. */
  lemma MulCancel(a: int, b: int, c: int)
    requires a > 0 && a * b < a * c
    ensures b < c
  {
  }

  /** A real discount (0 < discountedPrice <= price) is a percentage from 0 to 100. */
  lemma DiscountPercentageRange(p: Product)
    requires p.discountedPrice.Some? && 0 < p.discountedPrice.value <= p.price
    ensures 0 <= DiscountPercentage(p) <= 100
    ensures DiscountPercentage(p) == 0 <==> 200 * (p.price - p.discountedPrice.value) < p.price
  {
    RoundedRange(p.price, 100 * (p.price - p.discountedPrice.value), DiscountPercentage(p));
  }

  /** The rounding bounds, on plain integers: price, amount saved (times 100), rounded percentage. */
  lemma RoundedRange(price: int, saved: int, pct: int)
    requires 0 <= saved < 100 * price
    requires 2 * price * pct - price <= 2 * saved < 2 * price * pct + price
    ensures 0 <= pct <= 100
    ensures pct == 0 <==> 2 * saved < price
  {
    var below := price * (2 * pct - 1);
    var above := price * (2 * pct + 1);
    assert 2 * price * pct - price == below;
    assert 2 * price * pct + price == above;
    MulCancel(price, 0, 2 * pct + 1);
    MulCancel(price, 2 * pct - 1, 200);
    if 2 * saved < price {
      MulCancel(price, 2 * pct - 1, 1);
    }
  }

  /** The `finalPrice` virtual: the discounted price when it is truthy, else the list price. */
  function FinalPrice(p: Product): (r: int)
    ensures HasDiscount(p) ==> r == p.discountedPrice.value
    ensures !HasDiscount(p) ==> r == p.price
  {
    if HasDiscount(p) then p.discountedPrice.value else p.price
  }

  /**
   * The two virtuals agree: taking the advertised percentage off the list
   * price lands within half a percent of the price actually charged.
   */
  lemma FinalPriceMatchesPercentage(p: Product)
    requires p.price >= 0 && (HasDiscount(p) ==> p.price > 0)
    ensures var gap := 200 * FinalPrice(p) - 2 * p.price * (100 - DiscountPercentage(p));
      -p.price <= gap <= p.price
  {
    if HasDiscount(p) {
      var pct := DiscountPercentage(p);
      assert 2 * p.price * (100 - pct) == 200 * p.price - 2 * p.price * pct;
    }
  }

  /** A product without a truthy discounted price sells at list price with 0% off. */
  lemma NoDiscountFullPrice(p: Product)
    requires !HasDiscount(p)
    ensures FinalPrice(p) == p.price && DiscountPercentage(p) == 0
  {
  }

  /** The `inStock` virtual: some units are left. */
  function InStock(p: Product): (b: bool)
    ensures b <==> p.stock > 0
  {
    p.stock > 0
  }

  /**
   * The schema never stores a negative stock, so a valid product is out of
   * stock exactly when none is left, and a sale of the last unit puts it out of stock.
   */
  lemma InStockValid(p: Product)
    requires Valid(p)
    ensures InStock(p) <==> p.stock != 0
    ensures p.stock == 1 ==> InStock(p) && !InStock(p.(stock := p.stock - 1, unitsSold := p.unitsSold + 1))
  {
  }

  /** A document as submitted: optional fields may be missing, the status is a string. */
  datatype ProductInput = ProductInput(
    businessId: string,
    name: string,
    description: string,
    category: string,
    price: int,
    discountedPrice: Option<int>,
    discount: Option<int>,
    images: Option<seq<string>>,
    stock: Option<int>,
    unitsSold: Option<int>,
    averageRating: Option<real>,
    reviewCount: Option<int>,
    status: Option<string>,
    isDeleted: Option<bool>)

  /**
   * Saving a submitted document: names and descriptions are trimmed, missing
   * fields take their schema defaults, the status must be one of
   * PRODUCT_STATUS, and the result must satisfy the schema.
   */
  function Create(input: ProductInput): (r: Option<Product>)
    ensures r.Some? ==> Valid(r.value)
    ensures r.Some? ==> ProductStatusValue(r.value.status) == input.status.GetOr("active")
    ensures r.Some? ==> r.value.price == input.price && r.value.discountedPrice == input.discountedPrice
    ensures r.Some? ==> r.value.name == Trim(input.name) && r.value.description == Trim(input.description)
    ensures r.Some? ==> r.value.businessId == input.businessId && r.value.category == input.category
                        && r.value.discount == input.discount
    ensures input.status.Some? && ParseProductStatus(input.status.value).None? ==> r.None?
    ensures input.price < 0 || Trim(input.name) == [] || input.category !in BusinessCategories ==> r.None?
  {
    var status := if input.status.None? then Some(Active) else ParseProductStatus(input.status.value);
    if status.None? then None
    else
      var p := Product(
        input.businessId, Trim(input.name), Trim(input.description), input.category,
        input.price, input.discountedPrice, input.discount,
        input.images.GetOr([]), input.stock.GetOr(0), input.unitsSold.GetOr(0),
        input.averageRating.GetOr(0.0), input.reviewCount.GetOr(0),
        status.value, input.isDeleted.GetOr(false));
      if Valid(p) then Some(p) else None
  }

  /** The submission that stores exactly the given product. */
  function Submission(p: Product): ProductInput {
    ProductInput(
      p.businessId, p.name, p.description, p.category, p.price, p.discountedPrice, p.discount,
      Some(p.images), Some(p.stock), Some(p.unitsSold), Some(p.averageRating), Some(p.reviewCount),
      Some(ProductStatusValue(p.status)), Some(p.isDeleted))
  }

  /**
   * A valid product whose defaulted fields hold their defaults is stored
   * unchanged even when those fields are left out of the submission.
   */
  lemma CreateOmittingDefaults(p: Product)
    requires Valid(p)
    requires p.images == [] && p.stock == 0 && p.unitsSold == 0 && p.averageRating == 0.0
    requires p.reviewCount == 0 && p.status == Active && !p.isDeleted
    ensures Create(Submission(p).(images := None, stock := None, unitsSold := None, averageRating := None,
                                  reviewCount := None, status := None, isDeleted := None)) == Some(p)
  {
    TrimTrimmed(p.name);
    TrimTrimmed(p.description);
  }

  /** Every product the schema accepts survives a save unchanged. */
  lemma CreateAcceptsValid(p: Product)
    requires Valid(p)
    ensures Create(Submission(p)) == Some(p)
  {
    TrimTrimmed(p.name);
    TrimTrimmed(p.description);
    ProductStatusRoundTrip(p.status);
  }

  /**
   * A product saved with only its required fields, all acceptable, is
   * accepted, and is active, unsold and out of stock.
   */
  lemma CreateDefaults(input: ProductInput)
    requires input.businessId != "" && Trim(input.name) != [] && Trim(input.description) != []
    requires input.category in BusinessCategories && input.price >= 0
    requires input.discountedPrice.Some? ==> input.discountedPrice.value >= 0
    requires input.discount.Some? ==> 0 <= input.discount.value <= 100
    requires input.images.None? && input.stock.None? && input.unitsSold.None?
    requires input.averageRating.None? && input.reviewCount.None?
    requires input.status.None? && input.isDeleted.None?
    ensures Create(input).Some?
    ensures var p := Create(input).value;
      p.status == Active && !p.isDeleted && p.images == []
      && !InStock(p) && p.unitsSold == 0 && p.reviewCount == 0 && p.averageRating == 0.0
  {
    var p := Product(
      input.businessId, Trim(input.name), Trim(input.description), input.category,
      input.price, input.discountedPrice, input.discount, [], 0, 0, 0.0, 0, Active, false);
    assert Valid(p);
    assert Create(input) == Some(p);
  }
}

=== FILE: search.dfy ===
/**
 * The home page's business search, a case-insensitive substring match on
 * the business name or any of its product names, and its headline figures.
 */
module Search {
  import opened Strings

  datatype Product = Product(id: string, name: string)

  datatype Business = Business(id: string, name: string, products: seq<Product>)

  /** `products.some(p => p.name.toLowerCase().includes(query))`, query already lower-cased. */
  function AnyProductMatches(products: seq<Product>, lowered: string): (r: bool)
    ensures r <==> exists i :: 0 <= i < |products| && Includes(Lower(products[i].name), lowered)
    decreases |products|
  {
    if products == [] then false
    else Includes(Lower(products[0].name), lowered) || AnyProductMatches(products[1..], lowered)
  }

  /** The filter's test for one business. */
  function Matches(business: Business, query: string): bool {
    var lowered := Lower(query);
    Includes(Lower(business.name), lowered) || AnyProductMatches(business.products, lowered)
  }

  /** A business matches exactly when the lower-cased query occurs in its lower-cased name or a product's. */
  lemma MatchesMeaning(business: Business, query: string)
    ensures Matches(business, query)
            <==> || IsSubstring(Lower(query), Lower(business.name))
                 || exists i :: 0 <= i < |business.products|
                                && IsSubstring(Lower(query), Lower(business.products[i].name))
  {
    IncludesIsSubstring(Lower(business.name), Lower(query));
    forall i | 0 <= i < |business.products|
      ensures Includes(Lower(business.products[i].name), Lower(query))
              <==> IsSubstring(Lower(query), Lower(business.products[i].name))
    {
      IncludesIsSubstring(Lower(business.products[i].name), Lower(query));
    }
  }

  /** The filtered list the page shows. */
  function FilterBusinesses(businesses: seq<Business>, query: string): (r: seq<Business>)
    ensures forall b :: b in r <==> b in businesses && Matches(b, query)
    ensures |r| <= |businesses|
    decreases |businesses|
  {
    if businesses == [] then []
    else
      var rest := FilterBusinesses(businesses[1..], query);
      assert businesses == [businesses[0]] + businesses[1..];
      if Matches(businesses[0], query) then [businesses[0]] + rest else rest
  }

  /** Filtering works piecewise, so the kept businesses stay in list order. */
  lemma {:induction false} FilterAppend(a: seq<Business>, b: seq<Business>, query: string)
    ensures FilterBusinesses(a + b, query) == FilterBusinesses(a, query) + FilterBusinesses(b, query)
    decreases |a|
  {
    if a == [] {
      assert a + b == b;
    } else {
      assert (a + b)[0] == a[0] && (a + b)[1..] == a[1..] + b;
      FilterAppend(a[1..], b, query);
    }
  }

  /** `s` is obtained from `t` by deleting elements: each step keeps or drops the head of `t`. */
  predicate IsSubsequence<T(==)>(s: seq<T>, t: seq<T>)
    decreases |t|
  {
    if t == [] then s == []
    else (s != [] && s[0] == t[0] && IsSubsequence(s[1..], t[1..])) || IsSubsequence(s, t[1..])
  }

  /** The result is an order-preserving selection from the list. */
  lemma {:induction false} FilterIsSubsequence(businesses: seq<Business>, query: string)
    ensures IsSubsequence(FilterBusinesses(businesses, query), businesses)
    decreases |businesses|
  {
    if businesses != [] {
      var rest := FilterBusinesses(businesses[1..], query);
      FilterIsSubsequence(businesses[1..], query);
      if Matches(businesses[0], query) {
        assert ([businesses[0]] + rest)[1..] == rest;
      }
    }
  }

  /** The empty query keeps every business. */
  lemma {:induction false} EmptyQueryKeepsAll(businesses: seq<Business>)
    ensures FilterBusinesses(businesses, "") == businesses
    decreases |businesses|
  {
    if businesses != [] {
      IncludesEmpty(Lower(businesses[0].name));
      assert Lower("") == "";
      EmptyQueryKeepsAll(businesses[1..]);
    }
  }

  /** Queries that differ only in ASCII letter case give the same list. */
  lemma {:induction false} SearchIgnoresCase(businesses: seq<Business>, query: string)
    ensures FilterBusinesses(businesses, Upper(query)) == FilterBusinesses(businesses, query)
    ensures FilterBusinesses(businesses, Lower(query)) == FilterBusinesses(businesses, query)
    decreases |businesses|
  {
    LowerForgetsCase(query);
    if businesses != [] {
      SearchIgnoresCase(businesses[1..], query);
    }
  }

  // ---------------------------------------------------------------------
  // Stats

  /** The hard-coded "buyers saved" figure. */
  const BuyersSaved: nat := 1240

  datatype Stats = Stats(activeBusinesses: nat, totalProducts: nat, buyersSaved: nat)

  /** `reduce((sum, b) => sum + b.products.length, 0)`. */
  function TotalProducts(businesses: seq<Business>): nat
    decreases |businesses|
  {
    if businesses == [] then 0
    else TotalProducts(businesses[..|businesses| - 1]) + |businesses[|businesses| - 1].products|
  }

  lemma {:induction false} TotalProductsAppend(a: seq<Business>, b: seq<Business>)
    ensures TotalProducts(a + b) == TotalProducts(a) + TotalProducts(b)
    decreases |b|
  {
    if b == [] {
      assert a + b == a;
    } else {
      assert (a + b)[..|a + b| - 1] == a + b[..|b| - 1];
      assert (a + b)[|a + b| - 1] == b[|b| - 1];
      TotalProductsAppend(a, b[..|b| - 1]);
    }
  }

  /** One business contributes exactly its own products. */
  lemma TotalProductsSingle(b: Business)
    ensures TotalProducts([b]) == |b.products|
  {
    assert [b][..0] == [];
  }

  /** The stats effect over the full business list. */
  function ComputeStats(businesses: seq<Business>): (s: Stats)
    ensures s.activeBusinesses == |businesses|
    ensures s.totalProducts == TotalProducts(businesses)
    ensures s.buyersSaved == BuyersSaved
    ensures s.totalProducts == 0 <==> forall i :: 0 <= i < |businesses| ==> businesses[i].products == []
  {
    ProductsCounted(businesses);
    Stats(|businesses|, TotalProducts(businesses), BuyersSaved)
  }

  lemma {:induction false} ProductsCounted(businesses: seq<Business>)
    ensures TotalProducts(businesses) == 0 <==> forall i :: 0 <= i < |businesses| ==> businesses[i].products == []
    decreases |businesses|
  {
    if businesses != [] {
      var init := businesses[..|businesses| - 1];
      ProductsCounted(init);
      assert forall i :: 0 <= i < |init| ==> init[i] == businesses[i];
    }
  }

  /** A search never shows more products than the whole list has. */
  lemma {:induction false} FilteredProductsBounded(businesses: seq<Business>, query: string)
    ensures TotalProducts(FilterBusinesses(businesses, query)) <= TotalProducts(businesses)
    decreases |businesses|
  {
    if businesses != [] {
      var head := [businesses[0]];
      var rest := businesses[1..];
      assert businesses == head + rest;
      FilteredProductsBounded(rest, query);
      TotalProductsAppend(head, rest);
      if Matches(businesses[0], query) {
        TotalProductsAppend(head, FilterBusinesses(rest, query));
      }
    }
  }
}

=== FILE: signup.dfy ===
/**
 * The business sign-up form: the ordered validation checks with their
 * messages, and the submit handler that registers only a valid form.
 */
module Signup {
  import opened Wrappers
  import opened Strings
  import opened Auth

  datatype SignupForm = SignupForm(name: string, email: string, phone: string, businessName: string,
                                   whatsapp: string, password: string, confirmPassword: string)

  const RequiredFieldsMessage: string := "Please fill in all required fields"
  const ShortPasswordMessage: string := "Password must be at least 6 characters"
  const MismatchMessage: string := "Passwords do not match"
  const FallbackMessage: string := "Registration failed"

  /** `validateForm`: the first failing check decides the message. */
  function ValidateForm(form: SignupForm): (r: Outcome<string>)
    ensures form.name == [] || form.email == [] || form.businessName == [] ==> r == Fail(RequiredFieldsMessage)
    ensures (form.name != [] && form.email != [] && form.businessName != []
             && Utf16Length(form.password) < MinPasswordLength) ==> r == Fail(ShortPasswordMessage)
    ensures (form.name != [] && form.email != [] && form.businessName != []
             && Utf16Length(form.password) >= MinPasswordLength && form.password != form.confirmPassword)
            ==> r == Fail(MismatchMessage)
    ensures r == Pass <==> && form.name != [] && form.email != [] && form.businessName != []
                           && Utf16Length(form.password) >= MinPasswordLength
                           && form.password == form.confirmPassword
  {
    if form.name == [] || form.email == [] || form.businessName == [] then Fail(RequiredFieldsMessage)
    else if Utf16Length(form.password) < MinPasswordLength then Fail(ShortPasswordMessage)
    else if form.password != form.confirmPassword then Fail(MismatchMessage)
    else Pass
  }

  /** Phone and WhatsApp number are optional: they never decide the outcome. */
  lemma ContactFieldsOptional(form: SignupForm, phone: string, whatsapp: string)
    ensures ValidateForm(form.(phone := phone, whatsapp := whatsapp)) == ValidateForm(form)
  {
  }

  /** The page state `handleSubmit` leaves behind. */
  datatype SignupState = SignupState(users: seq<User>, error: string, currentUser: Option<PublicUser>,
                                     redirectTo: Option<string>)

  /** `result.error || 'Registration failed'`. */
  function ErrorText(error: string): (t: string)
    ensures t != []
    ensures error != [] ==> t == error
  {
    if error == [] then FallbackMessage else error
  }

  /**
   * `handleSubmit`: validate; on failure stop with the message. Otherwise
   * register; on success store the new user as the current one and go to
   * the dashboard. The random id is a parameter.
   */
  function HandleSubmit(users: seq<User>, current: Option<PublicUser>, form: SignupForm, newId: string)
    : (s: SignupState)
    ensures ValidateForm(form).Fail? ==> s == SignupState(users, ValidateForm(form).error, current, None)
    ensures s.redirectTo.Some? <==> ValidateForm(form) == Pass && FindByEmail(users, form.email).None?
    ensures s.redirectTo.Some? ==> s.redirectTo == Some("/dashboard") && IsBusinessUser(s.currentUser)
  {
    match ValidateForm(form)
    case Fail(message) => SignupState(users, message, current, None)
    case Pass =>
      var reg := RegisterBusiness(users, form.name, form.email, form.phone, form.businessName, form.whatsapp,
                                  form.password, newId);
      match reg.result
      case Success(user) => SignupState(reg.users, "", Some(user), Some("/dashboard"))
      case Failure(error) => SignupState(reg.users, ErrorText(error), current, None)
  }

  /** An invalid form never reaches registration: the user list is untouched. */
  lemma InvalidFormRegistersNobody(users: seq<User>, current: Option<PublicUser>, form: SignupForm, newId: string)
    requires ValidateForm(form).Fail?
    ensures HandleSubmit(users, current, form, newId).users == users
  {
  }

  /** A taken email leaves the list as it was and shows the registration error. */
  lemma TakenEmailRejected(users: seq<User>, current: Option<PublicUser>, form: SignupForm, newId: string)
    requires ValidateForm(form) == Pass
    requires FindByEmail(users, form.email).Some?
    ensures HandleSubmit(users, current, form, newId) == SignupState(users, "Email already registered", current, None)
  {
  }

  /** A successful sign-up adds exactly one user, who can then log in with the chosen password. */
  lemma SignupThenLogin(users: seq<User>, current: Option<PublicUser>, form: SignupForm, newId: string)
    requires ValidateForm(form) == Pass
    requires FindByEmail(users, form.email).None?
    ensures var s := HandleSubmit(users, current, form, newId);
            && |s.users| == |users| + 1
            && LoginUser(s.users, form.email, form.password) == Success(s.currentUser.value)
  {
    RegisterThenLogin(users, form.name, form.email, form.phone, form.businessName, form.whatsapp, form.password,
                      newId, form.password);
  }
}

=== FILE: strings.dfy ===
/**
 * Character and string helpers shared by the model: decimal rendering of
 * integers (JavaScript template interpolation of an integral number), its
 * inverse, ASCII lower-casing, substring search and the UTF-16 length that
 * JavaScript's `.length` reports.
 */
module Strings {
  import opened Wrappers

  predicate IsDigit(c: char) {
    '0' <= c <= '9'
  }

  predicate AllDigits(s: string) {
    forall i :: 0 <= i < |s| ==> IsDigit(s[i])
  }

  function DigitChar(d: nat): (c: char)
    requires d < 10
    ensures IsDigit(c)
    ensures DigitValue(c) == d
  {
    (('0' as int) + d) as char
  }

  function DigitValue(c: char): nat
    requires IsDigit(c)
  {
    (c as int) - ('0' as int)
  }

  /** Decimal rendering of a natural number, no leading zeros. */
  function NatToString(n: nat): (s: string)
    ensures 1 <= |s|
    ensures AllDigits(s)
    ensures 1 < |s| ==> s[0] != '0'
    decreases n
  {
    if n < 10 then [DigitChar(n)] else NatToString(n / 10) + [DigitChar(n % 10)]
  }

  /** Exactly the one-digit numbers render as a single character. */
  lemma NatToStringLength(n: nat)
    ensures n < 10 <==> |NatToString(n)| == 1
  {
    if n >= 10 {
      assert |NatToString(n)| == |NatToString(n / 10)| + 1;
    }
  }

  /** The number a string of decimal digits denotes. */
  function DigitsValue(s: string): nat
    requires AllDigits(s)
    decreases |s|
  {
    if s == [] then 0 else 10 * DigitsValue(s[..|s| - 1]) + DigitValue(s[|s| - 1])
  }

  lemma {:induction false} NatToStringValue(n: nat)
    ensures DigitsValue(NatToString(n)) == n
    decreases n
  {
    if n >= 10 {
      var s := NatToString(n);
      NatToStringValue(n / 10);
      assert s[..|s| - 1] == NatToString(n / 10);
    }
  }

  /** Parses a non-empty run of digits without a superfluous leading zero. */
  function ParseNat(s: string): (r: Option<nat>)
    ensures r.Some? ==> NatToString(r.value) == s
  {
    if 1 <= |s| && AllDigits(s) && (|s| == 1 || s[0] != '0') then
      CanonicalDigits(s);
      Some(DigitsValue(s))
    else None
  }

  lemma {:induction false} CanonicalDigits(s: string)
    requires 1 <= |s| && AllDigits(s) && (|s| == 1 || s[0] != '0')
    ensures NatToString(DigitsValue(s)) == s
    decreases |s|
  {
    var n := DigitsValue(s);
    if |s| == 1 {
      assert s[..|s| - 1] == [];
      assert n == DigitValue(s[0]) < 10;
      assert NatToString(n) == [DigitChar(n)];
      assert DigitChar(n) == s[0];
    } else {
      var p := s[..|s| - 1];
      assert p[0] == s[0];
      CanonicalDigits(p);
      DigitsPositive(p);
      assert n / 10 == DigitsValue(p) && n % 10 == DigitValue(s[|s| - 1]);
      assert DigitChar(n % 10) == s[|s| - 1];
      assert s == p + [s[|s| - 1]];
    }
  }

  lemma {:induction false} DigitsPositive(s: string)
    requires 1 <= |s| && AllDigits(s) && s[0] != '0'
    ensures DigitsValue(s) >= 1
    decreases |s|
  {
    if |s| > 1 {
      var p := s[..|s| - 1];
      assert p[0] == s[0];
      DigitsPositive(p);
    }
  }

  /** Round trip: parsing the rendering of n gives back n. */
  lemma ParseNatToString(n: nat)
    ensures ParseNat(NatToString(n)) == Some(n)
  {
    NatToStringValue(n);
  }

  /** Decimal rendering of an integer, with a leading '-' when negative. */
  function IntToString(i: int): (s: string)
    ensures 1 <= |s|
    ensures i >= 0 <==> s[0] != '-'
  {
    if i < 0 then "-" + NatToString(-i) else NatToString(i)
  }

  /** Inverse of IntToString. */
  function ParseInt(s: string): Option<int> {
    if 1 <= |s| && s[0] == '-' then
      match ParseNat(s[1..])
      case Some(n) => if n == 0 then None else Some(-(n as int))
      case None => None
    else
      match ParseNat(s)
      case Some(n) => Some(n as int)
      case None => None
  }

  lemma IntToStringRoundTrip(i: int)
    ensures ParseInt(IntToString(i)) == Some(i)
  {
    if i < 0 {
      ParseNatToString(-i);
      assert IntToString(i)[1..] == NatToString(-i);
    } else {
      ParseNatToString(i);
    }
  }

  /** ASCII-only `toLowerCase`. */
  function LowerChar(c: char): (d: char)
    ensures 'A' <= c <= 'Z' ==> d as int == c as int + 32
    ensures !('A' <= c <= 'Z') ==> d == c
  {
    if 'A' <= c <= 'Z' then ((c as int) + 32) as char else c
  }

  function Lower(s: string): (t: string)
    ensures |t| == |s|
    ensures forall i :: 0 <= i < |s| ==> t[i] == LowerChar(s[i])
  {
    seq(|s|, i requires 0 <= i < |s| => LowerChar(s[i]))
  }

  /** ASCII-only `toUpperCase`. */
  function UpperChar(c: char): char {
    if 'a' <= c <= 'z' then ((c as int) - 32) as char else c
  }

  function Upper(s: string): (t: string)
    ensures |t| == |s|
    ensures forall i :: 0 <= i < |s| ==> t[i] == UpperChar(s[i])
  {
    seq(|s|, i requires 0 <= i < |s| => UpperChar(s[i]))
  }

  /** Lower-casing forgets the case a string was written in. */
  lemma LowerForgetsCase(s: string)
    ensures Lower(Lower(s)) == Lower(s)
    ensures Lower(Upper(s)) == Lower(s)
  {
  }

  /** Declarative substring relation. */
  ghost predicate IsSubstring(needle: string, hay: string) {
    exists i :: OccursAt(needle, hay, i)
  }

  /** The needle occurs in the haystack starting at position i. */
  ghost predicate OccursAt(needle: string, hay: string, i: int) {
    0 <= i && i + |needle| <= |hay| && hay[i..i + |needle|] == needle
  }

  /** `hay.includes(needle)`: a left-to-right scan. */
  function Includes(hay: string, needle: string): (r: bool)
    ensures needle == [] ==> r
    ensures r ==> |needle| <= |hay|
    decreases |hay|
  {
    if needle <= hay then true
    else if hay == [] then false
    else Includes(hay[1..], needle)
  }

  /** The scan finds the needle exactly when it occurs somewhere in the haystack. */
  lemma {:induction false} IncludesIsSubstring(hay: string, needle: string)
    ensures Includes(hay, needle) <==> IsSubstring(needle, hay)
    decreases |hay|
  {
    if needle <= hay {
      assert OccursAt(needle, hay, 0);
    } else if hay != [] {
      IncludesIsSubstring(hay[1..], needle);
      if Includes(hay[1..], needle) {
        var i :| OccursAt(needle, hay[1..], i);
        assert hay[i + 1..i + 1 + |needle|] == needle;
        assert OccursAt(needle, hay, i + 1);
      } else {
        forall i | 0 <= i && i + |needle| <= |hay|
          ensures !OccursAt(needle, hay, i)
        {
          if i == 0 {
            assert hay[..|needle|] == hay[0..|needle|];
          } else {
            assert hay[i..i + |needle|] == hay[1..][i - 1..i - 1 + |needle|];
            assert !OccursAt(needle, hay[1..], i - 1);
          }
        }
      }
    }
  }

  /** The empty string occurs in every string. */
  lemma IncludesEmpty(hay: string)
    ensures Includes(hay, "")
  {
  }

  /** Number of occurrences of c in s. */
  function Occurrences(s: string, c: char): (n: nat)
    ensures n <= |s|
    ensures n == 0 <==> c !in s
    decreases |s|
  {
    if s == [] then 0 else (if s[0] == c then 1 else 0) + Occurrences(s[1..], c)
  }

  lemma OccurrencesAbsent(s: string, c: char)
    requires forall i :: 0 <= i < |s| ==> s[i] != c
    ensures Occurrences(s, c) == 0
  {
  }

  /** Counting distributes over concatenation. */
  lemma {:induction false} OccurrencesJoin(a: string, b: string, c: char)
    ensures Occurrences(a + b, c) == Occurrences(a, c) + Occurrences(b, c)
    decreases |a|
  {
    if a == [] {
      assert a + b == b;
    } else {
      assert (a + b)[0] == a[0] && (a + b)[1..] == a[1..] + b;
      OccurrencesJoin(a[1..], b, c);
    }
  }

  /** `String.prototype.repeat` on a one-character string. */
  function Repeat(c: char, n: nat): (s: string)
    ensures |s| == n
    ensures forall i :: 0 <= i < n ==> s[i] == c
    decreases n
  {
    if n == 0 then [] else [c] + Repeat(c, n - 1)
  }

  lemma {:induction false} RepeatOccurrences(c: char, n: nat)
    ensures Occurrences(Repeat(c, n), c) == n
    decreases n
  {
    if n > 0 {
      RepeatOccurrences(c, n - 1);
      assert Repeat(c, n)[1..] == Repeat(c, n - 1);
    }
  }

  /** ECMAScript WhiteSpace and LineTerminator code points: what `trim` strips. */
  predicate IsJsSpace(c: char) {
    c == '\t' || c == '\n' || c == '\U{000B}' || c == '\U{000C}' || c == '\r' || c == ' '
    || c == '\U{00A0}' || c == '\U{1680}' || ('\U{2000}' <= c <= '\U{200A}')
    || c == '\U{2028}' || c == '\U{2029}' || c == '\U{202F}' || c == '\U{205F}'
    || c == '\U{3000}' || c == '\U{FEFF}'
  }

  /** Neither end of the string is white space. */
  predicate IsTrimmed(s: string) {
    s == [] || (!IsJsSpace(s[0]) && !IsJsSpace(s[|s| - 1]))
  }

  /** Drops leading white space. */
  function TrimStart(s: string): (t: string)
    ensures |t| <= |s| && t == s[|s| - |t|..]
    ensures forall i :: 0 <= i < |s| - |t| ==> IsJsSpace(s[i])
    ensures t == [] || !IsJsSpace(t[0])
    decreases |s|
  {
    if s != [] && IsJsSpace(s[0]) then TrimStart(s[1..]) else s
  }

  /** Drops trailing white space. */
  function TrimEnd(s: string): (t: string)
    ensures |t| <= |s| && t == s[..|t|]
    ensures forall i :: |t| <= i < |s| ==> IsJsSpace(s[i])
    ensures t == [] || !IsJsSpace(t[|t| - 1])
    decreases |s|
  {
    if s != [] && IsJsSpace(s[|s| - 1]) then TrimEnd(s[..|s| - 1]) else s
  }

  /**
   * `String.prototype.trim`: what is left once the white space at both ends
   * is removed. The result sits at some k in s with only white space before
   * and after it, and neither of its own ends is white space.
   */
  function Trim(s: string): (t: string)
    ensures IsTrimmed(t)
    ensures exists k :: TrimmedAt(s, t, k)
    ensures t == [] <==> forall i :: 0 <= i < |s| ==> IsJsSpace(s[i])
  {
    var u := TrimStart(s);
    var t := TrimEnd(u);
    TrimBounds(s, u, t);
    t
  }

  /** t occurs in s at k, with only white space before and after it. */
  ghost predicate TrimmedAt(s: string, t: string, k: int) {
    && OccursAt(t, s, k)
    && (forall i :: 0 <= i < k ==> IsJsSpace(s[i]))
    && (forall i :: k + |t| <= i < |s| ==> IsJsSpace(s[i]))
  }

  lemma TrimBounds(s: string, u: string, t: string)
    requires |u| <= |s| && u == s[|s| - |u|..]
    requires forall i :: 0 <= i < |s| - |u| ==> IsJsSpace(s[i])
    requires |t| <= |u| && t == u[..|t|]
    requires forall i :: |t| <= i < |u| ==> IsJsSpace(u[i])
    requires t == [] || !IsJsSpace(t[0])
    ensures TrimmedAt(s, t, |s| - |u|)
    ensures t == [] <==> forall i :: 0 <= i < |s| ==> IsJsSpace(s[i])
  {
    var k := |s| - |u|;
    assert s[k..k + |t|] == u[..|t|];
    forall i | k + |t| <= i < |s|
      ensures IsJsSpace(s[i])
    {
      assert s[i] == u[i - k];
    }
    if t == [] {
      forall i | 0 <= i < |s|
        ensures IsJsSpace(s[i])
      {
        if i >= k {
          assert s[i] == u[i - k];
        }
      }
    } else {
      assert s[k] == t[0];
    }
  }

  /** Only one trimmed infix has nothing but white space around it. */
  lemma TrimmedAtUnique(s: string, t1: string, k1: int, t2: string, k2: int)
    requires IsTrimmed(t1) && TrimmedAt(s, t1, k1)
    requires IsTrimmed(t2) && TrimmedAt(s, t2, k2)
    ensures t1 == t2
  {
    if t1 != [] {
      NonSpaceFixes(s, t1, k1, t2, k2);
      NonSpaceFixes(s, t2, k2, t1, k1);
    } else if t2 != [] {
      NonSpaceFixes(s, t2, k2, t1, k1);
    }
  }

  /** A non-empty trimmed infix pins the position and length of every other one. */
  lemma NonSpaceFixes(s: string, t1: string, k1: int, t2: string, k2: int)
    requires t1 != [] && IsTrimmed(t1) && TrimmedAt(s, t1, k1)
    requires IsTrimmed(t2) && TrimmedAt(s, t2, k2)
    ensures t2 != [] && k2 <= k1 && k1 + |t1| <= k2 + |t2|
    ensures k2 == k1 && |t2| == |t1| ==> t2 == t1
  {
    var first := k1;
    var last := k1 + |t1| - 1;
    assert s[first] == t1[0] && s[last] == t1[|t1| - 1];
    assert !IsJsSpace(s[first]) && !IsJsSpace(s[last]);
  }

  /** A string already trimmed is its own trim. */
  lemma TrimTrimmed(s: string)
    requires IsTrimmed(s)
    ensures Trim(s) == s
  {
  }

  /** Trimming removes exactly the white space padding around a trimmed string. */
  lemma TrimPadding(before: string, t: string, after: string)
    requires IsTrimmed(t)
    requires forall i :: 0 <= i < |before| ==> IsJsSpace(before[i])
    requires forall i :: 0 <= i < |after| ==> IsJsSpace(after[i])
    ensures Trim(before + t + after) == t
  {
    var s := before + t + after;
    assert s[|before|..|before| + |t|] == t;
    forall i | 0 <= i < |before|
      ensures IsJsSpace(s[i])
    {
      assert s[i] == before[i];
    }
    forall i | |before| + |t| <= i < |s|
      ensures IsJsSpace(s[i])
    {
      assert s[i] == after[i - |before| - |t|];
    }
    assert TrimmedAt(s, t, |before|);
    var k :| TrimmedAt(s, Trim(s), k);
    TrimmedAtUnique(s, Trim(s), k, t, |before|);
  }

  /** Length in UTF-16 code units, which is what JavaScript's `.length` counts. */
  function Utf16Length(s: string): (n: nat)
    ensures |s| <= n <= 2 * |s|
    decreases |s|
  {
    if s == [] then 0 else (if s[0] as int >= 0x1_0000 then 2 else 1) + Utf16Length(s[1..])
  }

  /** A character is one code unit below U+10000 and a surrogate pair of two above. */
  lemma Utf16LengthChar(c: char)
    ensures Utf16Length([c]) == 1 <==> (c as int) < 0x1_0000
    ensures Utf16Length([c]) == 2 <==> (c as int) >= 0x1_0000
  {
    assert [c][1..] == [];
  }

  /** Code units add up across a concatenation. */
  lemma {:induction false} Utf16LengthAppend(a: string, b: string)
    ensures Utf16Length(a + b) == Utf16Length(a) + Utf16Length(b)
    decreases |a|
  {
    if a == [] {
      assert a + b == b;
    } else {
      assert (a + b)[0] == a[0] && (a + b)[1..] == a[1..] + b;
      Utf16LengthAppend(a[1..], b);
    }
  }

  /** Below U+10000 (the Basic Multilingual Plane) `.length` is the number of characters. */
  lemma {:induction false} Utf16LengthBmp(s: string)
    requires forall i :: 0 <= i < |s| ==> (s[i] as int) < 0x1_0000
    ensures Utf16Length(s) == |s|
    decreases |s|
  {
    if s != [] {
      Utf16LengthBmp(s[1..]);
    }
  }
}

=== FILE: tally.dfy ===
/**
 * `items.reduce((sum, item) => sum + item.quantity, 0)`, the item-count
 * virtual shared by the cart and order models, over any item type.
 */
module Tally {

  /** Left-to-right sum of the quantities `quantity` picks out of the items. */
  function SumQuantities<T>(items: seq<T>, quantity: T -> int): int
    decreases |items|
  {
    if items == [] then 0
    else SumQuantities(items[..|items| - 1], quantity) + quantity(items[|items| - 1])
  }

  /** The count of a concatenation is the sum of the counts. */
  lemma {:induction false} SumQuantitiesAppend<T>(a: seq<T>, b: seq<T>, quantity: T -> int)
    ensures SumQuantities(a + b, quantity) == SumQuantities(a, quantity) + SumQuantities(b, quantity)
    decreases |b|
  {
    if b == [] {
      assert a + b == a;
    } else {
      assert (a + b)[..|a + b| - 1] == a + b[..|b| - 1];
      SumQuantitiesAppend(a, b[..|b| - 1], quantity);
    }
  }

  /** When every item holds at least one unit, there are at least as many units as items. */
  lemma {:induction false} SumQuantitiesAtLeastCount<T>(items: seq<T>, quantity: T -> int)
    requires forall i :: 0 <= i < |items| ==> quantity(items[i]) >= 1
    ensures SumQuantities(items, quantity) >= |items|
    ensures SumQuantities(items, quantity) == |items| <==> forall i :: 0 <= i < |items| ==> quantity(items[i]) == 1
    decreases |items|
  {
    if items != [] {
      var init := items[..|items| - 1];
      SumQuantitiesAtLeastCount(init, quantity);
      if forall i :: 0 <= i < |init| ==> quantity(init[i]) == 1 {
        if quantity(items[|items| - 1]) == 1 {
          forall i | 0 <= i < |items|
            ensures quantity(items[i]) == 1
          {
            if i < |init| {
              assert items[i] == init[i];
            }
          }
        }
      } else {
        var j :| 0 <= j < |init| && quantity(init[j]) != 1;
        assert items[j] == init[j];
      }
    }
  }
}

=== FILE: uri.dfy ===
/**
 * ECMAScript `encodeURIComponent` (ECMA-262 section 19.2.6.5) on well-formed
 * strings: every character outside the unreserved set is written as the
 * UTF-8 bytes of its code point, each byte as '%' and two upper-case hex
 * digits (percent-encoding as in section 2.1 of RFC 3986). A decoder in the
 * manner of `decodeURIComponent` is the partner that proves nothing is lost.
 */
module Uri {
  import opened Wrappers

  type Byte = b: int | 0 <= b < 256

  /** Characters `encodeURIComponent` leaves as they are. */
  predicate IsUnreserved(c: char) {
    ('A' <= c <= 'Z') || ('a' <= c <= 'z') || ('0' <= c <= '9')
    || c == '-' || c == '_' || c == '.' || c == '!' || c == '~'
    || c == '*' || c == '\'' || c == '(' || c == ')'
  }

  predicate IsHexDigit(c: char) {
    ('0' <= c <= '9') || ('A' <= c <= 'F')
  }

  function HexDigit(d: nat): (c: char)
    requires d < 16
    ensures IsHexDigit(c)
  {
    if d < 10 then (('0' as int) + d) as char else (('A' as int) + d - 10) as char
  }

  function HexValue(c: char): (d: nat)
    requires IsHexDigit(c)
    ensures d < 16
    ensures HexDigit(d) == c
  {
    if '0' <= c <= '9' then (c as int) - ('0' as int) else (c as int) - ('A' as int) + 10
  }

  lemma HexRoundTrip(d: nat)
    requires d < 16
    ensures HexValue(HexDigit(d)) == d
  {
  }

  /** The UTF-8 encoding of one code point. */
  function Utf8(c: char): (bs: seq<Byte>)
    ensures 1 <= |bs| <= 4
  {
    var cp := c as int;
    if cp < 0x80 then [cp]
    else if cp < 0x800 then [0xC0 + cp / 64, 0x80 + cp % 64]
    else if cp < 0x1_0000 then [0xE0 + cp / 4096, 0x80 + cp / 64 % 64, 0x80 + cp % 64]
    else [0xF0 + cp / 262144, 0x80 + cp / 4096 % 64, 0x80 + cp / 64 % 64, 0x80 + cp % 64]
  }

  /** One byte as a '%XX' triple. */
  function EscapeByte(b: Byte): (t: string)
    ensures |t| == 3 && t[0] == '%' && IsHexDigit(t[1]) && IsHexDigit(t[2])
  {
    ['%', HexDigit(b / 16), HexDigit(b % 16)]
  }

  function EscapeBytes(bs: seq<Byte>): (t: string)
    ensures |t| == 3 * |bs|
  {
    if bs == [] then [] else EscapeByte(bs[0]) + EscapeBytes(bs[1..])
  }

  function EncodeChar(c: char): (t: string)
    ensures IsUnreserved(c) ==> t == [c]
    ensures 1 <= |t| <= 12
  {
    if IsUnreserved(c) then [c] else EscapeBytes(Utf8(c))
  }

  /** `encodeURIComponent(s)`. */
  function EncodeURIComponent(s: string): (r: string)
    ensures |s| <= |r| <= 12 * |s|
    ensures (forall i :: 0 <= i < |s| ==> IsUnreserved(s[i])) ==> r == s
    decreases |s|
  {
    if s == [] then [] else EncodeChar(s[0]) + EncodeURIComponent(s[1..])
  }

  /** Text built only from unreserved characters and '%XX' triples. */
  predicate IsPercentEncoded(t: string)
    decreases |t|
  {
    if t == [] then true
    else if IsUnreserved(t[0]) then IsPercentEncoded(t[1..])
    else 3 <= |t| && t[0] == '%' && IsHexDigit(t[1]) && IsHexDigit(t[2]) && IsPercentEncoded(t[3..])
  }

  // ---------------------------------------------------------------------
  // Decoding

  /** The byte written by the '%XX' triple at the front of t, if any. */
  function ReadByte(t: string): Option<Byte> {
    if 3 <= |t| && t[0] == '%' && IsHexDigit(t[1]) && IsHexDigit(t[2]) then
      Some(16 * HexValue(t[1]) + HexValue(t[2]))
    else None
  }

  /** A UTF-8 continuation byte's six payload bits, read from the triple at t[3*k..]. */
  function ReadContinuation(t: string, k: nat): Option<int> {
    if |t| < 3 * k then None
    else
      match ReadByte(t[3 * k..])
      case Some(b) => if 0x80 <= b < 0xC0 then Some(b - 0x80) else None
      case None => None
  }

  predicate IsScalarValue(cp: int) {
    (0 <= cp < 0xD800) || (0xE000 <= cp < 0x11_0000)
  }

  /**
   * Decodes the escaped UTF-8 sequence at the front of t: the character and
   * how many text characters it took. Overlong forms, surrogates and
   * malformed sequences are refused, as `decodeURIComponent` refuses them.
   */
  function ReadEscapedChar(t: string): (r: Option<(char, nat)>)
    ensures r.Some? ==> 3 <= r.value.1 <= |t|
  {
    match ReadByte(t)
    case None => None
    case Some(b0) =>
      if b0 < 0x80 then Some((b0 as char, 3))
      else if 0xC2 <= b0 < 0xE0 then
        match ReadContinuation(t, 1)
        case None => None
        case Some(c1) =>
          var cp := (b0 - 0xC0) * 64 + c1;
          Some((cp as char, 6))
      else if 0xE0 <= b0 < 0xF0 then
        match (ReadContinuation(t, 1), ReadContinuation(t, 2))
        case (Some(c1), Some(c2)) =>
          var cp := ((b0 - 0xE0) * 64 + c1) * 64 + c2;
          if 0x800 <= cp && IsScalarValue(cp) then Some((cp as char, 9)) else None
        case _ => None
      else if 0xF0 <= b0 < 0xF5 then
        match (ReadContinuation(t, 1), ReadContinuation(t, 2), ReadContinuation(t, 3))
        case (Some(c1), Some(c2), Some(c3)) =>
          var cp := (((b0 - 0xF0) * 64 + c1) * 64 + c2) * 64 + c3;
          if 0x1_0000 <= cp < 0x11_0000 then Some((cp as char, 12)) else None
        case _ => None
      else None
  }

  /** `decodeURIComponent(t)`, with None for the inputs it throws on. */
  function DecodeURIComponent(t: string): Option<string>
    decreases |t|
  {
    if t == [] then Some([])
    else if t[0] != '%' then
      match DecodeURIComponent(t[1..])
      case Some(rest) => Some([t[0]] + rest)
      case None => None
    else
      match ReadEscapedChar(t)
      case None => None
      case Some((c, n)) =>
        match DecodeURIComponent(t[n..])
        case Some(rest) => Some([c] + rest)
        case None => None
  }

  // ---------------------------------------------------------------------
  // Properties

  lemma ReadByteEscape(b: Byte, rest: string)
    ensures ReadByte(EscapeByte(b) + rest) == Some(b)
  {
    var t := EscapeByte(b) + rest;
    assert t[0] == '%' && t[1] == HexDigit(b / 16) && t[2] == HexDigit(b % 16);
    HexRoundTrip(b / 16);
    HexRoundTrip(b % 16);
  }

  /** The k-th '%XX' triple of an escaped byte run is that byte. */
  lemma {:induction false} ReadByteAt(bs: seq<Byte>, rest: string, k: nat)
    requires k < |bs|
    ensures (EscapeBytes(bs) + rest)[3 * k..] == EscapeByte(bs[k]) + EscapeBytes(bs[k + 1..]) + rest
    ensures ReadByte((EscapeBytes(bs) + rest)[3 * k..]) == Some(bs[k])
    decreases k
  {
    if k == 0 {
      assert EscapeBytes(bs) == EscapeByte(bs[0]) + EscapeBytes(bs[1..]);
    } else {
      assert EscapeBytes(bs) + rest == EscapeByte(bs[0]) + (EscapeBytes(bs[1..]) + rest);
      ReadByteAt(bs[1..], rest, k - 1);
      assert bs[1..][k - 1] == bs[k];
      assert bs[1..][k..] == bs[k + 1..];
    }
    ReadByteEscape(bs[k], EscapeBytes(bs[k + 1..]) + rest);
  }

  lemma Utf8Value2(cp: int)
    requires 0x80 <= cp < 0x800
    ensures 0xC2 <= 0xC0 + cp / 64 < 0xE0
    ensures (cp / 64) * 64 + cp % 64 == cp
  {
  }

  lemma Utf8Value3(cp: int)
    requires 0x800 <= cp < 0x1_0000
    ensures 0xE0 <= 0xE0 + cp / 4096 < 0xF0
    ensures ((cp / 4096) * 64 + cp / 64 % 64) * 64 + cp % 64 == cp
  {
    var a := cp / 4096;
    var b := cp / 64 % 64;
    var c := cp % 64;
    assert cp / 64 == a * 64 + b;
    assert cp == (cp / 64) * 64 + c;
  }

  lemma Utf8Value4(cp: int)
    requires 0x1_0000 <= cp < 0x11_0000
    ensures 0xF0 <= 0xF0 + cp / 262144 < 0xF5
    ensures (((cp / 262144) * 64 + cp / 4096 % 64) * 64 + cp / 64 % 64) * 64 + cp % 64 == cp
  {
    var a := cp / 262144;
    var b := cp / 4096 % 64;
    var c := cp / 64 % 64;
    var d := cp % 64;
    assert cp / 4096 == a * 64 + b;
    assert cp / 64 == (cp / 4096) * 64 + c;
    assert cp == (cp / 64) * 64 + d;
  }

  lemma CharIsScalar(c: char)
    ensures IsScalarValue(c as int)
  {
  }

  lemma ReadEscaped1(c: char, rest: string)
    requires c as int < 0x80
    ensures ReadEscapedChar(EscapeBytes(Utf8(c)) + rest) == Some((c, 3))
  {
    var t := EscapeBytes(Utf8(c)) + rest;
    ReadByteAt(Utf8(c), rest, 0);
    assert t[0..] == t;
  }

  lemma ReadEscaped2(c: char, rest: string)
    requires 0x80 <= c as int < 0x800
    ensures ReadEscapedChar(EscapeBytes(Utf8(c)) + rest) == Some((c, 6))
  {
    var bs := Utf8(c);
    var t := EscapeBytes(bs) + rest;
    ReadByteAt(bs, rest, 0);
    ReadByteAt(bs, rest, 1);
    assert t[0..] == t;
    Utf8Value2(c as int);
  }

  lemma ReadEscaped3(c: char, rest: string)
    requires 0x800 <= c as int < 0x1_0000
    ensures ReadEscapedChar(EscapeBytes(Utf8(c)) + rest) == Some((c, 9))
  {
    var bs := Utf8(c);
    var t := EscapeBytes(bs) + rest;
    ReadByteAt(bs, rest, 0);
    ReadByteAt(bs, rest, 1);
    ReadByteAt(bs, rest, 2);
    assert t[0..] == t;
    CharIsScalar(c);
    Utf8Value3(c as int);
  }

  lemma ReadEscaped4(c: char, rest: string)
    requires 0x1_0000 <= c as int
    ensures ReadEscapedChar(EscapeBytes(Utf8(c)) + rest) == Some((c, 12))
  {
    var bs := Utf8(c);
    var t := EscapeBytes(bs) + rest;
    CharIsScalar(c);
    ReadByteAt(bs, rest, 0);
    ReadByteAt(bs, rest, 1);
    ReadByteAt(bs, rest, 2);
    ReadByteAt(bs, rest, 3);
    assert t[0..] == t;
    Utf8Value4(c as int);
  }

  /** Decoding the escaped UTF-8 of one character gives that character back. */
  lemma ReadEscapedCharEncoded(c: char, rest: string)
    ensures ReadEscapedChar(EscapeBytes(Utf8(c)) + rest) == Some((c, 3 * |Utf8(c)|))
  {
    var cp := c as int;
    if cp < 0x80 {
      ReadEscaped1(c, rest);
    } else if cp < 0x800 {
      ReadEscaped2(c, rest);
    } else if cp < 0x1_0000 {
      ReadEscaped3(c, rest);
    } else {
      ReadEscaped4(c, rest);
    }
  }

  /** `decodeURIComponent(encodeURIComponent(s)) == s` for every well-formed s. */
  lemma {:induction false} DecodeEncode(s: string)
    ensures DecodeURIComponent(EncodeURIComponent(s)) == Some(s)
    decreases |s|
  {
    if s != [] {
      var c := s[0];
      var rest := EncodeURIComponent(s[1..]);
      var t := EncodeChar(c) + rest;
      assert EncodeURIComponent(s) == t;
      DecodeEncode(s[1..]);
      if IsUnreserved(c) {
        assert t[0] == c && t[1..] == rest;
      } else {
        ReadEscapedCharEncoded(c, rest);
        var n := 3 * |Utf8(c)|;
        assert t[..n] == EscapeBytes(Utf8(c));
        assert t[n..] == rest;
        assert t[0] == '%';
      }
      assert s == [c] + s[1..];
    }
  }

  lemma {:induction false} EscapeBytesEncoded(bs: seq<Byte>, rest: string)
    requires IsPercentEncoded(rest)
    ensures IsPercentEncoded(EscapeBytes(bs) + rest)
    decreases |bs|
  {
    if bs != [] {
      var t := EscapeBytes(bs) + rest;
      EscapeBytesEncoded(bs[1..], rest);
      assert t == EscapeByte(bs[0]) + (EscapeBytes(bs[1..]) + rest);
      assert t[3..] == EscapeBytes(bs[1..]) + rest;
    } else {
      assert EscapeBytes(bs) + rest == rest;
    }
  }

  /** The output holds only unreserved characters and '%XX' triples. */
  lemma {:induction false} EncodedAlphabet(s: string)
    ensures IsPercentEncoded(EncodeURIComponent(s))
    decreases |s|
  {
    if s != [] {
      var rest := EncodeURIComponent(s[1..]);
      EncodedAlphabet(s[1..]);
      if IsUnreserved(s[0]) {
        assert (EncodeChar(s[0]) + rest)[1..] == rest;
      } else {
        EscapeBytesEncoded(Utf8(s[0]), rest);
      }
    }
  }

  /** Encoding distributes over concatenation. */
  lemma {:induction false} EncodeAppend(a: string, b: string)
    ensures EncodeURIComponent(a + b) == EncodeURIComponent(a) + EncodeURIComponent(b)
    decreases |a|
  {
    if a == [] {
      assert a + b == b;
    } else {
      assert (a + b)[0] == a[0];
      assert (a + b)[1..] == a[1..] + b;
      EncodeAppend(a[1..], b);
    }
  }
}

=== FILE: whatsapp.dfy ===
/**
 * The checkout handoff: the fixed order-message template over the cart
 * lines, and the `https://wa.me/<digits>?text=<encoded message>` link.
 */
module WhatsApp {
  import opened Wrappers
  import opened Strings
  import Money
  import Uri

  /** What the template reads from a cart line; `price` in cents. */
  datatype OrderLine = OrderLine(name: string, price: int, quantity: int)

  /** '─' (U+2500, box drawings light horizontal). */
  const Rule: char := '\U{2500}'

  /** The separator line under the header and above the total. */
  const Separator: string := Repeat(Rule, 30)

  const LinkPrefix: string := "https://wa.me/"
  const TextParam: string := "?text="

  // ---------------------------------------------------------------------
  // Message template

  /** Who is ordering, from which business, and the details heading. */
  function Header(buyerName: string, buyerPhone: string, businessName: string): string {
    BuyerLine(buyerName) + BusinessLine(businessName) + PhoneLine(buyerPhone) + DetailsLine()
  }

  function BuyerLine(buyerName: string): string {
    "*New Order from " + buyerName + "*\n\n"
  }

  function BusinessLine(businessName: string): string {
    "*Business:* " + businessName + "\n"
  }

  function PhoneLine(buyerPhone: string): string {
    "*Buyer Phone:* " + buyerPhone + "\n\n"
  }

  function DetailsLine(): string {
    "*Order Details:*\n" + Separator + "\n"
  }

  /** The block for the line at zero-based position `index`: number and name, unit price, line subtotal. */
  function Block(index: nat, line: OrderLine): string {
    TitleLine(NatToString(index + 1), line.name)
    + PriceLine(Money.FormatCents(line.price), IntToString(line.quantity))
    + SubtotalLine(Money.FormatCents(Money.LineAmount(line.price, line.quantity)))
  }

  function TitleLine(number: string, name: string): string {
    number + ". " + name + "\n"
  }

  function PriceLine(price: string, quantity: string): string {
    "   Price: $" + price + " x " + quantity + "\n"
  }

  function SubtotalLine(subtotal: string): string {
    "   Subtotal: $" + subtotal + "\n\n"
  }

  function Footer(totalAmount: int): string {
    Separator + "\n" + TotalLine(Money.FormatCents(totalAmount))
  }

  function TotalLine(total: string): string {
    "*Total Amount:* $" + total + "\n\n"
  }

  /** The blocks for `lines`, numbering the first one `start + 1`. */
  function Blocks(lines: seq<OrderLine>, start: nat): (bs: seq<string>)
    ensures |bs| == |lines|
  {
    Numbered(lines, start, Block)
  }

  /** `f(start + i, xs[i])` for every position i, in order. */
  function Numbered<T>(xs: seq<T>, start: nat, f: (nat, T) -> string): (r: seq<string>)
    ensures |r| == |xs|
    decreases |xs|
  {
    if xs == [] then [] else [f(start, xs[0])] + Numbered(xs[1..], start + 1, f)
  }

  /** The i-th block is the block of the i-th line, numbered from start + 1. */
  lemma BlocksIndex(lines: seq<OrderLine>, start: nat, i: nat)
    requires i < |lines|
    ensures Blocks(lines, start)[i] == Block(start + i, lines[i])
  {
    NumberedIndex(lines, start, Block, i);
  }

  lemma {:induction false} NumberedIndex<T>(xs: seq<T>, start: nat, f: (nat, T) -> string, i: nat)
    requires i < |xs|
    ensures Numbered(xs, start, f)[i] == f(start + i, xs[i])
    decreases i
  {
    if i > 0 {
      NumberedIndex(xs[1..], start + 1, f, i - 1);
      assert xs[1..][i - 1] == xs[i];
    }
  }

  function Concat(ss: seq<string>): string
    decreases |ss|
  {
    if ss == [] then "" else ss[0] + Concat(ss[1..])
  }

  lemma {:induction false} ConcatSnoc(ss: seq<string>, s: string)
    ensures Concat(ss + [s]) == Concat(ss) + s
    decreases |ss|
  {
    if ss == [] {
      assert ss + [s] == [s];
    } else {
      assert (ss + [s])[0] == ss[0] && (ss + [s])[1..] == ss[1..] + [s];
      ConcatSnoc(ss[1..], s);
    }
  }

  /**
   * `generateWhatsAppMessage`: a header naming the buyer, the business and
   * the buyer's phone, one numbered block per line in cart order, and the
   * supplied total.
   */
  function Message(buyerName: string, buyerPhone: string, lines: seq<OrderLine>, businessName: string,
                   totalAmount: int): string
  {
    Header(buyerName, buyerPhone, businessName) + Concat(Blocks(lines, 0)) + Footer(totalAmount)
  }

  /** Appending the next block extends the concatenated prefix by one. */
  lemma AppendBlock(prefix: string, blocks: seq<string>, index: nat)
    requires index < |blocks|
    ensures prefix + Concat(blocks[..index]) + blocks[index] == prefix + Concat(blocks[..index + 1])
  {
    ConcatSnoc(blocks[..index], blocks[index]);
    assert blocks[..index + 1] == blocks[..index] + [blocks[index]];
  }

  /**
   * The message built as the source builds it: the header, then one `+=`
   * per line in a forEach, then the footer. It is the template above.
   */
  method BuildMessage(buyerName: string, buyerPhone: string, lines: seq<OrderLine>, businessName: string,
                      totalAmount: int) returns (message: string)
    ensures message == Message(buyerName, buyerPhone, lines, businessName, totalAmount)
  {
    var header := Header(buyerName, buyerPhone, businessName);
    var blocks := Blocks(lines, 0);
    message := header;
    var index := 0;
    while index < |lines|
      invariant 0 <= index <= |lines|
      invariant message == header + Concat(blocks[..index])
    {
      AppendBlock(header, blocks, index);
      message := message + blocks[index];
      index := index + 1;
    }
    assert blocks[..index] == blocks;
    message := message + Footer(totalAmount);
  }

  /** The message opens with the buyer's name, then the business and the buyer's phone. */
  lemma MessageOpening(buyerName: string, buyerPhone: string, lines: seq<OrderLine>, businessName: string,
                       totalAmount: int)
    ensures ("*New Order from " + buyerName + "*\n\n" + "*Business:* " + businessName + "\n"
             + "*Buyer Phone:* " + buyerPhone + "\n\n")
            <= Message(buyerName, buyerPhone, lines, businessName, totalAmount)
  {
  }

  /** The message closes with the supplied total, written with two decimals, and a blank line. */
  lemma MessageClosing(buyerName: string, buyerPhone: string, lines: seq<OrderLine>, businessName: string,
                       totalAmount: int)
    ensures var m := Message(buyerName, buyerPhone, lines, businessName, totalAmount);
            var tail := "*Total Amount:* $" + Money.FormatCents(totalAmount) + "\n\n";
            |tail| <= |m| && m[|m| - |tail|..] == tail
  {
  }

  /** Occurrences of c over all line names. */
  function NameOccurrences(lines: seq<OrderLine>, c: char): nat
    decreases |lines|
  {
    if lines == [] then 0 else Occurrences(lines[0].name, c) + NameOccurrences(lines[1..], c)
  }

  /** No decimal rendering contains the rule character. */
  lemma NumbersHaveNoRule(cents: int, i: int, n: nat)
    ensures Occurrences(Money.FormatCents(cents), Rule) == 0
    ensures Occurrences(IntToString(i), Rule) == 0
    ensures Occurrences(NatToString(n), Rule) == 0
  {
    OccurrencesAbsent(Money.FormatCents(cents), Rule);
    OccurrencesAbsent(NatToString(n), Rule);
    OccurrencesAbsent(NatToString(if i < 0 then -i else i), Rule);
  }

  /** Text with one value between fixed pieces that do not contain the rule character. */
  lemma LabelledRules(lead: string, value: string, closing: string)
    requires Rule !in lead && Rule !in closing
    ensures Occurrences(lead + value + closing, Rule) == Occurrences(value, Rule)
  {
    OccurrencesAbsent(lead, Rule);
    OccurrencesAbsent(closing, Rule);
    OccurrencesJoin(lead, value, Rule);
    OccurrencesJoin(lead + value, closing, Rule);
  }

  /** The same with two values. */
  lemma LabelledPairRules(lead: string, a: string, mid: string, b: string, closing: string)
    requires Rule !in lead && Rule !in mid && Rule !in closing
    ensures Occurrences(lead + a + mid + b + closing, Rule) == Occurrences(a, Rule) + Occurrences(b, Rule)
  {
    OccurrencesAbsent(lead, Rule);
    OccurrencesAbsent(mid, Rule);
    OccurrencesAbsent(closing, Rule);
    OccurrencesJoin(lead, a, Rule);
    OccurrencesJoin(lead + a, mid, Rule);
    OccurrencesJoin(lead + a + mid, b, Rule);
    OccurrencesJoin(lead + a + mid + b, closing, Rule);
  }

  lemma SeparatorRules()
    ensures Occurrences(Separator, Rule) == 30
  {
    RepeatOccurrences(Rule, 30);
  }

  lemma TitleLineRules(number: string, name: string)
    ensures Occurrences(TitleLine(number, name), Rule) == Occurrences(number, Rule) + Occurrences(name, Rule)
  {
    LabelledPairRules("", number, ". ", name, "\n");
    assert "" + number == number;
  }

  lemma PriceLineRules(price: string, quantity: string)
    ensures Occurrences(PriceLine(price, quantity), Rule) == Occurrences(price, Rule) + Occurrences(quantity, Rule)
  {
    LabelledPairRules("   Price: $", price, " x ", quantity, "\n");
  }

  lemma SubtotalLineRules(subtotal: string)
    ensures Occurrences(SubtotalLine(subtotal), Rule) == Occurrences(subtotal, Rule)
  {
    LabelledRules("   Subtotal: $", subtotal, "\n\n");
  }

  lemma BuyerLineRules(buyerName: string)
    ensures Occurrences(BuyerLine(buyerName), Rule) == Occurrences(buyerName, Rule)
  {
    LabelledRules("*New Order from ", buyerName, "*\n\n");
  }

  lemma BusinessLineRules(businessName: string)
    ensures Occurrences(BusinessLine(businessName), Rule) == Occurrences(businessName, Rule)
  {
    LabelledRules("*Business:* ", businessName, "\n");
  }

  lemma PhoneLineRules(buyerPhone: string)
    ensures Occurrences(PhoneLine(buyerPhone), Rule) == Occurrences(buyerPhone, Rule)
  {
    LabelledRules("*Buyer Phone:* ", buyerPhone, "\n\n");
  }

  lemma DetailsLineRules()
    ensures Occurrences(DetailsLine(), Rule) == 30
  {
    SeparatorRules();
    LabelledRules("*Order Details:*\n", Separator, "\n");
  }

  lemma TotalLineRules(total: string)
    ensures Occurrences(TotalLine(total), Rule) == Occurrences(total, Rule)
  {
    LabelledRules("*Total Amount:* $", total, "\n\n");
  }

  lemma HeaderRules(buyerName: string, buyerPhone: string, businessName: string)
    ensures Occurrences(Header(buyerName, buyerPhone, businessName), Rule)
            == 30 + Occurrences(buyerName, Rule) + Occurrences(businessName, Rule) + Occurrences(buyerPhone, Rule)
  {
    var a := BuyerLine(buyerName);
    var b := BusinessLine(businessName);
    var c := PhoneLine(buyerPhone);
    BuyerLineRules(buyerName);
    BusinessLineRules(businessName);
    PhoneLineRules(buyerPhone);
    DetailsLineRules();
    OccurrencesJoin(a, b, Rule);
    OccurrencesJoin(a + b, c, Rule);
    OccurrencesJoin(a + b + c, DetailsLine(), Rule);
  }

  lemma FooterRules(totalAmount: int)
    ensures Occurrences(Footer(totalAmount), Rule) == 30
  {
    var total := Money.FormatCents(totalAmount);
    NumbersHaveNoRule(totalAmount, 0, 0);
    TotalLineRules(total);
    LabelledRules("", Separator, "\n");
    assert "" + Separator == Separator;
    SeparatorRules();
    OccurrencesJoin(Separator + "\n", TotalLine(total), Rule);
  }

  /** A block contains the rule character only where the product name does. */
  lemma BlockRules(index: nat, line: OrderLine)
    ensures Occurrences(Block(index, line), Rule) == Occurrences(line.name, Rule)
  {
    var number := NatToString(index + 1);
    var price := Money.FormatCents(line.price);
    var quantity := IntToString(line.quantity);
    var subtotal := Money.FormatCents(Money.LineAmount(line.price, line.quantity));
    NumbersHaveNoRule(line.price, line.quantity, index + 1);
    NumbersHaveNoRule(Money.LineAmount(line.price, line.quantity), 0, 0);
    TitleLineRules(number, line.name);
    PriceLineRules(price, quantity);
    SubtotalLineRules(subtotal);
    OccurrencesJoin(TitleLine(number, line.name), PriceLine(price, quantity), Rule);
    OccurrencesJoin(TitleLine(number, line.name) + PriceLine(price, quantity), SubtotalLine(subtotal), Rule);
  }

  lemma {:induction false} BlocksRules(lines: seq<OrderLine>, start: nat)
    ensures Occurrences(Concat(Blocks(lines, start)), Rule) == NameOccurrences(lines, Rule)
    decreases |lines|
  {
    if lines != [] {
      var blocks := Blocks(lines, start);
      var first := Block(start, lines[0]);
      var rest := Concat(Blocks(lines[1..], start + 1));
      assert blocks == [first] + Blocks(lines[1..], start + 1);
      assert blocks[0] == first && blocks[1..] == Blocks(lines[1..], start + 1);
      assert Concat(blocks) == first + rest;
      BlocksRules(lines[1..], start + 1);
      BlockRules(start, lines[0]);
      OccurrencesJoin(first, rest, Rule);
    }
  }

  /**
   * The rule character appears 60 times, the two separators of 30, plus
   * however often the buyer, the business or the product names contain it.
   */
  lemma MessageRules(buyerName: string, buyerPhone: string, lines: seq<OrderLine>, businessName: string,
                     totalAmount: int)
    ensures Occurrences(Message(buyerName, buyerPhone, lines, businessName, totalAmount), Rule)
            == 60 + Occurrences(buyerName, Rule) + Occurrences(businessName, Rule) + Occurrences(buyerPhone, Rule)
               + NameOccurrences(lines, Rule)
  {
    var h := Header(buyerName, buyerPhone, businessName);
    var b := Concat(Blocks(lines, 0));
    HeaderRules(buyerName, buyerPhone, businessName);
    BlocksRules(lines, 0);
    FooterRules(totalAmount);
    OccurrencesJoin(h, b, Rule);
    OccurrencesJoin(h + b, Footer(totalAmount), Rule);
  }

  // ---------------------------------------------------------------------
  // Link

  /** `phone.replace(/[^0-9]/g, '')`. */
  function DigitsOnly(s: string): (r: string)
    ensures AllDigits(r)
    ensures |r| <= |s|
    decreases |s|
  {
    if s == [] then "" else (if IsDigit(s[0]) then [s[0]] else "") + DigitsOnly(s[1..])
  }

  /** Digit stripping keeps the digits in order and drops everything else. */
  lemma {:induction false} DigitsOnlyAppend(a: string, b: string)
    ensures DigitsOnly(a + b) == DigitsOnly(a) + DigitsOnly(b)
    decreases |a|
  {
    if a == [] {
      assert a + b == b;
    } else {
      assert (a + b)[0] == a[0] && (a + b)[1..] == a[1..] + b;
      DigitsOnlyAppend(a[1..], b);
      var head := if IsDigit(a[0]) then [a[0]] else "";
      assert DigitsOnly(a + b) == head + DigitsOnly(a[1..] + b);
      assert DigitsOnly(a) == head + DigitsOnly(a[1..]);
    }
  }

  lemma {:induction false} DigitsOnlyKeepsDigits(s: string)
    requires AllDigits(s)
    ensures DigitsOnly(s) == s
    decreases |s|
  {
    if s != [] {
      DigitsOnlyKeepsDigits(s[1..]);
    }
  }

  /** A single character survives exactly when it is a digit. */
  lemma DigitsOnlyChar(c: char)
    ensures DigitsOnly([c]) == if IsDigit(c) then [c] else []
  {
    assert [c][1..] == [];
  }

  /** The link for an already built message: `https://wa.me/<digits>?text=<encoded>`. */
  function Link(businessPhone: string, message: string): string {
    LinkPrefix + DigitsOnly(businessPhone) + TextParam + Uri.EncodeURIComponent(message)
  }

  /** `generateWhatsAppLink`: the link carrying the order message. */
  function GenerateLink(businessPhone: string, buyerName: string, buyerPhone: string, lines: seq<OrderLine>,
                        businessName: string, totalAmount: int): (link: string)
    ensures ParseLink(link)
            == Some((DigitsOnly(businessPhone), Message(buyerName, buyerPhone, lines, businessName, totalAmount)))
  {
    var message := Message(buyerName, buyerPhone, lines, businessName, totalAmount);
    LinkRoundTrip(businessPhone, message);
    Link(businessPhone, message)
  }

  /** Position of the first c in s. */
  function IndexOf(s: string, c: char): (r: Option<nat>)
    ensures r.Some? ==> r.value < |s| && s[r.value] == c && forall j :: 0 <= j < r.value ==> s[j] != c
    ensures r.None? ==> forall j :: 0 <= j < |s| ==> s[j] != c
    decreases |s|
  {
    if s == [] then None
    else if s[0] == c then Some(0)
    else
      match IndexOf(s[1..], c)
      case Some(i) => Some(i + 1)
      case None => None
  }

  /** Reads a link back into its phone digits and its decoded message. */
  function ParseLink(link: string): Option<(string, string)> {
    if !(LinkPrefix <= link) then None else ParseQuery(link[|LinkPrefix|..])
  }

  /** Reads what follows the link prefix: digits up to the first '?', then `text=` and the encoded message. */
  function ParseQuery(rest: string): Option<(string, string)> {
    match IndexOf(rest, '?')
    case None => None
    case Some(q) =>
      if !(TextParam <= rest[q..]) then None
      else
        match Uri.DecodeURIComponent(rest[q + |TextParam|..])
        case None => None
        case Some(message) => Some((rest[..q], message))
  }

  /**
   * The link carries exactly the business phone's digits and, once
   * decoded, exactly the message.
   */
  lemma LinkRoundTrip(businessPhone: string, message: string)
    ensures ParseLink(Link(businessPhone, message)) == Some((DigitsOnly(businessPhone), message))
  {
    var digits := DigitsOnly(businessPhone);
    var encoded := Uri.EncodeURIComponent(message);
    var rest := digits + TextParam + encoded;
    assert Link(businessPhone, message) == LinkPrefix + rest;
    PrefixThenRest(LinkPrefix, rest);
    SplitQuery(digits, encoded);
    Uri.DecodeEncode(message);
  }

  lemma PrefixThenRest(prefix: string, rest: string)
    ensures prefix <= prefix + rest && (prefix + rest)[|prefix|..] == rest
  {
  }

  /** A query with a digit-only phone splits at its first '?' into that phone and the decoded text. */
  lemma SplitQuery(digits: string, encoded: string)
    requires AllDigits(digits)
    ensures ParseQuery(digits + TextParam + encoded)
            == match Uri.DecodeURIComponent(encoded)
               case None => None
               case Some(message) => Some((digits, message))
  {
    var tail := TextParam + encoded;
    var rest := digits + tail;
    assert digits + TextParam + encoded == rest;
    FirstQuestionMark(digits, tail);
    PrefixThenRest(digits, tail);
    PrefixThenRest(TextParam, encoded);
    assert rest[..|digits|] == digits;
    assert rest[|digits|..][|TextParam|..] == rest[|digits| + |TextParam|..];
  }

  lemma FirstQuestionMark(digits: string, tail: string)
    requires AllDigits(digits)
    requires TextParam <= tail
    ensures IndexOf(digits + tail, '?') == Some(|digits|)
  {
    var rest := digits + tail;
    assert rest[|digits|] == tail[0] == '?';
    assert forall j :: 0 <= j < |digits| ==> rest[j] == digits[j];
  }

  /**
   * After the fixed prefix the link holds only digits up to "?text=", and
   * after it only unreserved characters and '%XX' triples.
   */
  lemma LinkAlphabet(businessPhone: string, message: string)
    ensures var link := Link(businessPhone, message);
            var n := |LinkPrefix + DigitsOnly(businessPhone) + TextParam|;
            && LinkPrefix <= link
            && n <= |link|
            && AllDigits(link[|LinkPrefix|..n - |TextParam|])
            && link[n - |TextParam|..n] == TextParam
            && Uri.IsPercentEncoded(link[n..])
  {
    var link := Link(businessPhone, message);
    var n := |LinkPrefix + DigitsOnly(businessPhone) + TextParam|;
    assert link[n..] == Uri.EncodeURIComponent(message);
    assert link[|LinkPrefix|..n - |TextParam|] == DigitsOnly(businessPhone);
    Uri.EncodedAlphabet(message);
  }
}

=== FILE: wrappers.dfy ===
/** Failure-compatible wrappers shared by the whole model. */
module Wrappers {

  /** A value that may be absent: JavaScript's `undefined`/`null` or a lookup miss. */
  datatype Option<+T> = None | Some(value: T) {
    function GetOr(default: T): T {
      match this
      case Some(v) => v
      case None => default
    }
  }

  /** The outcome of a check that either passes or fails with an error value. */
  datatype Outcome<+E> = Pass | Fail(error: E)
}
